=== FILE: README.md ===
# Checkpoint Dressup — a Dafny model of the game rules and helpers

Checkpoint Dressup is a browser game. The player dresses a character in garments of five clothing styles and drives through faction checkpoints. At each checkpoint the faction's dress code decides whether the character may pass, must pay, or is turned away.

This project models that dress-code check and the self-contained helpers around it:

- the body-part, clothing-style and faction enumerations;
- the two digit-grouping number formatters (`GTLib.ScoreFormatter.formatScore` and `Fashion.FormatUtil`);
- the on-screen keyboard's text buffer;
- the life, score and count-down counters;
- the highscore lists;
- the translation lookup of `GTLib.LangUtil`;
- `GTLib.ArrayUtil`'s array helpers and the `Fashion.Config` map.

It also proves properties of each of these.

JavaScript values that the code inspects dynamically are modelled explicitly by the `Json` datatype:

- falsiness (`null`, `false`, `0` and `""`);
- `typeof null == "object"`;
- own properties, where strings and arrays own their index keys and `length`;
- `for … in` enumeration, which visits the index keys but not `length`.

A JavaScript `throw`, or a crash on a missing object, becomes the `Failure` case of a `Result`. Where the source has already changed state before it throws, the model returns that state next to the `Failure` (`LangUtil.GetTranslation`). Timers become explicit step functions. Display-only effects are dropped.

Modules, one per file:

| module | file | models |
|---|---|---|
| `Wrappers` | wrappers.dfy | `Option` and `Result` |
| `Enums` | enums.dfy | BodyPart, ClothingStyle, Faction |
| `Decimal` | decimal.dfy | `toString` of integers; the shared digit-grouping reference (`Chunks`, `Join`, `Grouped`, `Strip`) |
| `DressCode` | dresscode.dfy | `DressUpSpace.performDressCodeCheck` |
| `ScoreFormatter` | scoreformatter.dfy | `GTLib.ScoreFormatter.formatScore` |
| `FormatUtil` | formatutil.dfy | `Fashion.FormatUtil` integer formatters |
| `Keyboard` | keyboard.dfy | `GTLib.Keyboard` buffer editing |
| `LifeCounter` | lifecounter.dfy | `GTLib.LifeCounter.setLives` and `lives` |
| `ScoreCounter` | scorecounter.dfy | `GTLib.ScoreCounter` count-up |
| `CountDown` | countdown.dfy | `GTLib.CountDown` |
| `Highscore` | highscore.dfy | `GTLib.HighscoreList` and `HighscoreScreen.isHighscore` |
| `Json` | json.dfy | JavaScript values, own and enumerable properties |
| `LangUtil` | langutil.dfy | `GTLib.LangUtil` |
| `Config` | config.dfy | `Fashion.Config` |
| `ArrayUtil` | arrayutil.dfy | `GTLib.ArrayUtil` |

The imperative loops of the source appear as methods whose loops follow the source step by step. Their postconditions tie them to independent functional reference definitions:

- `TallyCoverage` and `SumLimitErrors` are tied to the set-cardinality definitions of `Check`.
- `FormatScore` and `ConvertNumToString` are tied to `Decimal.Grouped`.
- `WalkTokens` is tied to `Walk` and `Resolve`.
- `PopAll` is tied to `Reverse(Filter(..))`.

## Model

| member | source | states |
|---|---|---|
| Enums.AllPartsComplete | src/enums/BodyPart.js:8-18 | every body part is among the nine listed |
| Enums.AllStylesComplete | src/enums/ClothingStyle.js:8-14 | every clothing style is among the five the check iterates |
| Enums.EnumsDistinct | src/enums/Faction.js:8-20 | the lists of parts, styles and factions are duplicate-free, with 9, 5 and 4 members |
| DressCode.CountPart | src/dressup/DressUpSpace.js:106-118 | one pass of the coverage loop: the worn style's count goes up by one; a part with a different `must` style, or with the `mustNot` style worn, adds one error each |
| DressCode.TallyStart | src/dressup/DressUpSpace.js:99-104 | all five style counts start at zero, matching zero wearers among no parts |
| DressCode.TallyComplete | src/dressup/DressUpSpace.js:106-118 | after all parts are seen, the tally equals the reference style counts and coverage errors |
| DressCode.TallyCoverage | src/dressup/DressUpSpace.js:99-118 | the coverage loop yields, for each style, the number of covered parts showing it, and the number of broken `must` rules plus broken `mustNot` rules |
| DressCode.CountStyleLimits | src/dressup/DressUpSpace.js:124-135 | a style adds how far its count lies above its maximum and below its minimum; an absent limit adds nothing |
| DressCode.SumLimitErrors | src/dressup/DressUpSpace.js:122-136 | the limits loop over the five styles sums the per-style limit errors |
| DressCode.EvaluateDressCode | src/dressup/DressUpSpace.js:97-161 | the whole check as written yields the reference verdict `Check` |
| DressCode.PerformDressCodeCheck | src/dressup/DressUpSpace.js:95 | a faction without a dress code fails; otherwise the verdict is `Check` on its code |
| DressCode.SumStyleCountsCovers | src/dressup/DressUpSpace.js:106-108 | summing the counts of distinct styles counts each covered part in one of them exactly once |
| DressCode.StyleCountsSumToCoverage | src/dressup/DressUpSpace.js:99-118 | the five style counts add up to the number of covered parts |
| DressCode.CoverageErrorsBound | src/dressup/DressUpSpace.js:106-118 | coverage errors never exceed twice the number of covered parts |
| DressCode.NoCoverageErrorsIffRulesKept | src/dressup/DressUpSpace.js:106-118 | no coverage errors exactly when no covered part breaks its `must` or `mustNot` rule |
| DressCode.NoLimitErrorsOver | src/dressup/DressUpSpace.js:122-136 | limit errors over some styles vanish exactly when each of them is within its limits |
| DressCode.NoLimitErrorsIffWithinLimits | src/dressup/DressUpSpace.js:122-136 | limit errors vanish exactly when every style count respects its minimum and maximum |
| DressCode.ErrorsBounds | src/dressup/DressUpSpace.js:141-147 | errors after tolerance are non-negative; they are zero iff both raw counts are within the tolerance; they are at most the larger raw count for a non-negative tolerance; penalty = errors × penaltyPerFail |
| DressCode.WithinToleranceNoPenalty | src/dressup/DressUpSpace.js:141-161 | with both raw counts within the tolerance the penalty is zero, and the check passes when the penalty limit is non-negative |
| DressCode.OutcomeMeaning | src/dressup/DressUpSpace.js:150-161 | denied iff penalty > penaltyLimit; payment demanded iff 0 < penalty <= penaltyLimit, and it equals the penalty |
| DressCode.ToleranceMonotone | src/dressup/DressUpSpace.js:141-147 | raising the tolerance never raises the penalty, and never turns a pass into a denial, for non-negative penaltyPerFail |
| DressCode.CompliantPasses | src/dressup/DressUpSpace.js:106-161 | a coverage that keeps every rule and limit passes without payment |
| DressCode.StrictTorsoExample | src/dressup/DressUpSpace.js:110-113 | an exposed torso under a strict `must` rule costs one error and ten money |
| DressCode.MinimumStrictExample | src/dressup/DressUpSpace.js:130-135 | one strict part against a minimum of three adds two limit errors |
| Decimal.ParseNatToString | lib/gtlib.js:3173 | reading back the decimal digits of a number gives the number |
| Decimal.NatToStringCanonical | lib/gtlib.js:3173 | a number's decimal string is non-empty and all digits, with no leading zero except in "0" itself |
| Decimal.NatToStringInjective | lib/gtlib.js:3173 | distinct numbers have distinct decimal strings |
| Decimal.DropLastThreeDigits | lib/gtlib.js:3199 | dividing by 1000 drops exactly the last three digits |
| Decimal.ChunksSpec | lib/gtlib.js:3183-3203 | the chunks are well grouped (first 1-3 digits, then exactly 3), concatenate back to the digits, and number ceil(L/3) |
| Decimal.ChunksUnique | lib/gtlib.js:3183-3203 | there is only one well-grouped split of a digit string |
| Decimal.UngroupGrouped | lib/gtlib.js:3183-3203 | removing the separator from a grouped digit string gives the digits back |
| Decimal.GroupedSeparatorCount | src/utils/FormatUtil.js:38-44 | a grouped string of L digits holds exactly ceil(L/3) - 1 separators |
| Decimal.GroupedLength | src/utils/FormatUtil.js:38-44 | grouping adds one character per chunk boundary |
| Decimal.GroupedChars | src/utils/FormatUtil.js:38-44 | a grouped string starts with the first digit and holds only digits and separators |
| ScoreFormatter.Substr | lib/gtlib.js:3194-3197 | `substr(start, length)` returns exactly the characters of `s` from `start`, `length` of them or up to the end of the string, whichever comes first; nothing for a start past the end or a non-positive length |
| ScoreFormatter.EffectiveSeparator | lib/gtlib.js:3171 | an empty separator falls back to a space; a non-empty one is kept |
| ScoreFormatter.FormatScore | lib/gtlib.js:3170-3204 | zero gives "0"; a negative score gives ""; a positive score gives its digit chunks joined by the separator |
| ScoreFormatter.FormatScoreBlocks | lib/gtlib.js:3183-3203 | for a positive score, removing separators gives its digits; the first group has 1-3 digits, all others exactly 3 |
| FormatUtil.ConvertNumToString | src/utils/FormatUtil.js:32-50 | the splice loop produces the grouped reference string `GroupedNumber` |
| FormatUtil.GroupedNumberStrip | src/utils/FormatUtil.js:32-50 | removing the apostrophes gives the integer's decimal string, signed |
| FormatUtil.GroupedNumberSeparators | src/utils/FormatUtil.js:38-44 | exactly ceil(L/3) - 1 apostrophes for L digits, and the groups are well formed |
| FormatUtil.GroupedNumberSign | src/utils/FormatUtil.js:45-48 | the result starts with '-' iff the number is negative, followed by the grouped magnitude |
| FormatUtil.GroupedNumberRoundTrip | src/utils/FormatUtil.js:32-50 | parsing the grouped string back gives the number |
| FormatUtil.FormatValue | src/utils/FormatUtil.js:17-22 | the grouped number, with a '+' in front iff the value is positive; the rest parses back to the value |
| FormatUtil.MakeNumberATwoDigitString | src/utils/FormatUtil.js:126-138 | always two characters: 0..99 read back as the number, longer inputs are cut to their first two characters, negative digits keep the sign |
| FormatUtil.ConvertNumberToPriceString | src/utils/FormatUtil.js:148-153 | the grouped number followed by ",00"; the part before the suffix parses back to the number |
| FormatUtil.SlashPairSplit | src/utils/FormatUtil.js:61-64 | joining two space-free strings with " / " can be split back into them |
| FormatUtil.ConvertTwoNumbersToStringWithSlash | src/utils/FormatUtil.js:61-64 | the two grouped numbers around " / ", and the result parses back to the two numbers |
| Keyboard.UpdateKeyStatesAsWritten | lib/gtlib.js:1466-1475 | the source's update fails exactly on a layout with a backspace key and no enter key; otherwise each present key is enabled iff the buffer is non-empty, and text and label are kept |
| Keyboard.UpdateKeyStates | lib/gtlib.js:1466-1475 | keeps the text, keeps which special keys exist, and enables each key exactly when the buffer is non-empty |
| Keyboard.UpdateKeyStatesAgree | lib/gtlib.js:1466-1475 | with an enter key, or with no backspace key, the source's update equals the intended one |
| Keyboard.UpdateKeyStatesMissingEnter | lib/gtlib.js:1471-1474 | a layout with only a backspace key makes the source's update fail |
| Keyboard.UpdateOutput | lib/gtlib.js:1482-1487 | an attached label shows the buffer afterwards; nothing else changes, and no label is created |
| Keyboard.ClearBuffer | lib/gtlib.js:1282-1288 | the buffer is empty, both keys are disabled and the label shows "" |
| Keyboard.AddToBuffer | lib/gtlib.js:1454-1459 | appends while there is room (a zero limit means no limit), otherwise changes nothing; appending at most one character never exceeds a positive limit |
| Keyboard.OnKeyDown | lib/gtlib.js:1395-1447 | for any key value: the limit setting is kept, the keys reflect the new buffer and the label shows it; "enter" and only "enter" affirms, with the old text, and empties the buffer; "cancel" and only "cancel" cancels; every other key announces the new text |
| Keyboard.OnKeyDownSpec | lib/gtlib.js:1395-1447 | for key values satisfying `IsKeyValue` (special keys and single non-space characters from the Basic Multilingual Plane): enter emits the old text and clears it; cancel clears; backspace drops exactly the last character; space is added only after a non-space; a valid keyboard stays valid |
| Keyboard.BackspaceKeepsValid | lib/gtlib.js:1411-1418 | backspace keeps the buffer well spaced and within the limit |
| Keyboard.SpaceKeepsValid | lib/gtlib.js:1401-1410 | space never creates a leading or double space |
| Keyboard.LetterKeepsValid | lib/gtlib.js:1436-1439 | a letter key (one non-space character from the Basic Multilingual Plane) keeps the buffer well spaced and within the limit |
| Keyboard.TypeKeepsValid | lib/gtlib.js:1395-1447 | any series of key values satisfying `IsKeyValue` keeps the keyboard valid |
| Keyboard.TypeLetters | lib/gtlib.js:1436-1439 | typing the letters of a space-free word on an unbounded keyboard appends the word |
| Keyboard.TypeWordThenEnter | lib/gtlib.js:1419-1427 | typing a word and then enter affirms exactly that word and leaves the buffer empty |
| LifeCounter.ClampLives | lib/gtlib.js:402-403 | the amount is clamped to 0..number of counters |
| LifeCounter.SetLives | lib/gtlib.js:400-431 | stores the clamped amount; a clamped amount equal to the current one changes nothing and signals nothing; "depleted" fires iff lives drop to 0 from non-zero with the signal flag set |
| LifeCounter.FilledFromEndCount | lib/gtlib.js:411-424 | filling the last `lives` counters fills exactly `lives` of them |
| LifeCounter.SetLivesShowsLives | lib/gtlib.js:411-424 | after a change, exactly the last `lives` counters are filled |
| LifeCounter.SetLivesIdempotent | lib/gtlib.js:400-431 | setting the same amount twice changes nothing the second time |
| LifeCounter.SetLivesProperty | lib/gtlib.js:549-560 | the `lives` setter stores the clamped value and signals iff lives drop to 0 |
| ScoreCounter.CountTo | lib/gtlib.js:2664-2673 | sets the target and starts running; a zero step keeps the previous step |
| ScoreCounter.Reset | lib/gtlib.js:2679-2686 | score and target back to zero, stopped, step kept |
| ScoreCounter.OnTimer | lib/gtlib.js:2717-2728 | the score advances by one step but never past the target; completion happens iff the target is reached, and then the counter stops |
| ScoreCounter.TicksNeeded | lib/gtlib.js:2717-2728 | enough ticks to cover the distance to the target |
| ScoreCounter.RunReachesTarget | lib/gtlib.js:2717-2728 | with a positive step a running counter reaches its target and stops |
| ScoreCounter.RunNeverOvershoots | lib/gtlib.js:2717-2728 | no number of ticks takes the score past the target |
| CountDown.New | lib/gtlib.js:2752-2810 | a zero start number defaults to 3, an empty completion text to none; stopped and hidden |
| CountDown.Display | lib/gtlib.js:2860-2876 | shows the number (or the completion text at zero) and records it as the current step |
| CountDown.Start | lib/gtlib.js:2821-2834 | a running count-down is left alone; otherwise it starts from the given count, or from the start number when none is given |
| CountDown.Stop | lib/gtlib.js:2840-2849 | stops, hides and shows the start number |
| CountDown.OnStep | lib/gtlib.js:2913-2924 | completes exactly when the current step is at or below zero; otherwise it displays one less |
| CountDown.CountsDown | lib/gtlib.js:2913-2924 | k steps from a running count-down display the current step minus k, without completing |
| CountDown.StartedCountDownCompletes | lib/gtlib.js:2821-2924 | started from c, the count-down has not completed after c steps and completes at step c + 1 |
| CountDown.StepsSplit | lib/gtlib.js:2913-2924 | an uncompleted run of n steps extends by one more step |
| Highscore.NewList | lib/gtlib.js:2014-2030 | a zero entry count builds 10 blank ranked rows; a positive count builds that many; a negative count builds none |
| Highscore.IsHighscore | lib/gtlib.js:2062-2065 | fails on an empty list; otherwise true iff the score beats the last entry |
| Highscore.IsHighscoreMeansMakesTheList | lib/gtlib.js:2062-2065 | on a ranked list, beating the last entry is the same as beating some entry |
| Highscore.SetEntry | lib/gtlib.js:2071-2081 | overwrites only the row at the index; an out-of-range index changes nothing |
| Highscore.Parse | lib/gtlib.js:2086-2101 | each row takes the item's name and score, rows without an item are blanked, and ranks stay |
| Highscore.ParseTwice | lib/gtlib.js:2086-2101 | parsing the same list twice gives the same rows |
| Highscore.ScreenIsHighscore | lib/gtlib.js:2471-2478 | fails exactly when the overall list is empty, or when the daily list is empty and has to be asked because the score does not beat the overall list; otherwise true iff the score beats the last entry of the overall or the daily list |
| Highscore.ScreenIsHighscoreMeansMakesAList | lib/gtlib.js:2471-2478 | on ranked, non-empty lists the answer is whether the score beats some entry of the overall or of the daily list |
| Json.IndexKeys | src/config/Config.js:35-38 | a string's or array's enumerable keys are exactly the canonical index strings below its length |
| Json.LengthNotEnumerable | src/config/Config.js:35-38 | `length` is an own property of strings and arrays but is not enumerated |
| LangUtil.ValidateLanguage | lib/utils/LangUtil.js:40-47 | a language is valid exactly when `indexOf` finds it in the valid-language list |
| LangUtil.IndexOf | lib/utils/LangUtil.js:42 | -1 iff absent, otherwise the first position holding the value |
| LangUtil.ValidateByIndexOf | lib/utils/LangUtil.js:40-47 | the `indexOf` test holds exactly for languages in the valid-language list |
| LangUtil.SetLanguage | lib/utils/LangUtil.js:55-66 | the language becomes the given one if valid, otherwise German; nothing else changes |
| LangUtil.SetLanguageValid | lib/utils/LangUtil.js:55-66 | the language set is valid iff the given one or German is valid |
| LangUtil.SetValidLanguages | lib/utils/LangUtil.js:74-77 | afterwards exactly the given languages validate |
| LangUtil.SetTranslationContent | lib/utils/LangUtil.js:85-93 | falsy content fails; otherwise it is stored and nothing else changes |
| LangUtil.Split | lib/utils/LangUtil.js:121 | `split("-")` always gives at least one piece, the empty token included |
| LangUtil.LastIndexOf | lib/utils/LangUtil.js:121 | -1 iff the character is absent, otherwise its last position |
| LangUtil.SplitJoin | lib/utils/LangUtil.js:121 | splitting on '-' and joining back gives the token; no piece holds '-'; pieces = dashes + 1 |
| LangUtil.Walk | lib/utils/LangUtil.js:124-139 | the source's lookup order, one sub-key at a time from the left; a walk fails only on a path that does not resolve, because a step lands on null |
| LangUtil.ResolveCons | lib/utils/LangUtil.js:124-139 | resolving a key path follows its first key and then the rest |
| LangUtil.ResolveNone | lib/utils/LangUtil.js:124-139 | a missing first key resolves to nothing |
| LangUtil.WalkFindsResolved | lib/utils/LangUtil.js:124-139 | when every sub-key exists, the walk returns the nested value they name |
| LangUtil.WalkStopsAtMissing | lib/utils/LangUtil.js:127-132 | at the first missing sub-key the walk stops with "TNF_" plus that key |
| LangUtil.WalkTokens | lib/utils/LangUtil.js:124-139 | the source's loop with its early exit computes the walk |
| LangUtil.Translation | lib/utils/LangUtil.js:107-119 | fails iff neither a cached translation nor content exists; a cached one is kept; otherwise the content becomes the cache |
| LangUtil.GetTranslation | lib/utils/LangUtil.js:101-140 | with neither a cached translation nor content it fails and changes nothing; otherwise the translation is cached first and stays cached whatever the walk does, and the result is the walk of the dash-split token, a failure when the walk meets null |
| LangUtil.NullOnPathStillCaches | lib/utils/LangUtil.js:107-139 | with content {"a": null} and token "a-b" the walk fails, yet the content has become the cached translation |
| LangUtil.CachedTranslationWins | lib/utils/LangUtil.js:107-119 | after a lookup has cached the translation, new content no longer changes lookups |
| LangUtil.TokenFound | lib/utils/LangUtil.js:121-139 | a token whose sub-keys all exist translates to the nested value |
| Config.ParseConfig | src/config/Config.js:27-39 | falsy input fails; otherwise every enumerable key takes the input's value and every other key keeps its previous value |
| Config.ParseConfigIdempotent | src/config/Config.js:35-38 | parsing the same value again changes nothing |
| Config.ParsePrimitiveKeepsConfig | src/config/Config.js:35-38 | a truthy number or boolean has no keys to copy |
| Config.GetFontStyle | src/config/Config.js:46-53 | succeeds iff `fonts` exists and its entry for the key is an own, truthy property, and then returns that entry |
| Config.ParsedFontStyleFound | src/config/Config.js:27-53 | a font parsed in from a config is found afterwards |
| ArrayUtil.PopAll | lib/utils/ArrayUtil.js:28-36 | popping everything empties the array and destroys the destroyable elements in pop order |
| ArrayUtil.ReverseAppend | lib/utils/ArrayUtil.js:28-36 | reversal turns concatenation around |
| ArrayUtil.FilterSnoc | lib/utils/ArrayUtil.js:32-35 | filtering one more element keeps it iff it has a destroy method and is truthy |
| ArrayUtil.DestroyedLastToFirst | lib/utils/ArrayUtil.js:28-36 | the destroyed elements are the destroyable ones, last to first, and only when asked to destroy |
| ArrayUtil.DisposeArrayAsWritten | lib/utils/ArrayUtil.js:22-38 | fails iff the argument is null; empties an array; leaves other values alone |
| ArrayUtil.DisposeArray | lib/utils/ArrayUtil.js:22-38 | empties an array, destroying the destroyable elements last to first; any other value, null included, is left alone |
| ArrayUtil.DisposeVersionsAgree | lib/utils/ArrayUtil.js:24 | for every argument except null, the source's and the corrected version agree |
| ArrayUtil.Merge | lib/utils/ArrayUtil.js:49-60 | the result is the first array followed by the second |

## Left out

- Rendering, tweens, sounds and input events (Phaser): only the state these widgets keep is modelled.
- Garment wearing, blocking and drop-zone hit testing: the code for them is empty or a to-do, so there is no behaviour to model. The character's coverage is a parameter.
- The structure of the dress-code content file: a dress code is a `Code` record. Limits are optional integers, which replaces the `isNaN` test on possibly missing properties. Non-numeric limits are not modelled.
- DressCode.PerformDressCodeCheck: the source only logs its verdict; the model returns it.
- Floating-point values: formatters and counters work on integers. The percentage formatters of `FormatUtil` (floating-point division and rounding) are not modelled.
- Decimal.NatToString: writes the exact digits of every integer. JavaScript numbers are exact only up to 2^53 - 1, and `toString` switches to exponent notation from 1e21 on. So `ScoreFormatter.FormatScore` and the `FormatUtil` formatters match the source only for safe integers (|n| <= 2^53 - 1).
- ScoreFormatter.FormatScore: non-integer scores are not modelled. A negative score yields "" as in the source.
- HighscoreScreen `send`, `refresh`, `parse` and `parseRemoteResponse`: HTTP requests and MD5 tokens.
- ArrayUtil: objects that are neither arrays nor null are treated as having nothing to pop; array-like objects are not modelled.
- ArrayUtil.DisposeArray: arrays are values. The returned sequence stands for the caller's array after the call; the source pops that same array in place. `destroy()` is a call into the elements' own code. The model assumes it does not touch the array being disposed, and records only which elements were destroyed and in what order.
- ArrayUtil.Merge: arrays are values. The result stands for the first array after the call, which the source extends in place with `push` and returns as the same object; aliasing between the two arguments is not modelled.
- `src/phone/MessageCenter.js`: it depends on the engine's random numbers and is unfinished.
- LifeCounter: `createCounter` and the fill and deplete animations are not modelled. The counters are the sequence of filled flags.
- ScoreCounter and CountDown: timers are explicit steps (`OnTimer`, `OnStep`). `ScoreCounter.stop`, `setScore` and the display effects are not modelled.
- Keyboard: key creation, layout and show/hide are not modelled. The keys' enabled flags and the output label are fields.
- Keyboard.OnKeyDown: key handling uses the corrected key-state update `UpdateKeyStates`. On a layout with a backspace key but no enter key the source throws on every key press; the model does not. `Keyboard.UpdateKeyStatesAgree` shows that the two updates agree on every other layout, so `OnKeyDownSpec` and `TypeKeepsValid` describe the source there.
- Keyboard.ClearBuffer: uses the corrected key-state update as well, for the same reason; on a backspace-only layout the source throws here too.
- Keyboard.TypeKeepsValid: holds only for key values satisfying `IsKeyValue`. The source's layouts may hold keys whose value is longer than one character, a space, or a letter that `toUpperCase` widens. `onKeyDown` appends such a value whole, so it can exceed `maxlength` or break the spacing rule. `OnKeyDown` models that; the validity lemmas do not cover it.
- Keyboard.OnKeyDownSpec: validity is kept only for key values satisfying `IsKeyValue`, for the reason above.
- Keyboard.AddToBuffer: string lengths and indexes count Unicode characters, here and in `Json.StringIndexes` and `Json.OwnProperties`. JavaScript's `length` and string indexes count UTF-16 code units, and the two agree only for characters in the Basic Multilingual Plane. A character outside it counts 2 in the source's `_buffer.length < this.maxlength`, so the source can exceed `maxlength` where the model does not. The source's backspace `substr(0, length - 1)` leaves half of a surrogate pair behind, and a `string` here cannot hold one.
- Keyboard.LetterKeepsValid: covers only letters in the Basic Multilingual Plane, through `IsKeyValue`, for the reason above. `OnKeyDownSpec` and `TypeKeepsValid` inherit this restriction.
- Config.GetFontStyle: the source's comment says a missing style gives null, but the code throws. The model follows the code.
- Config: properties inherited through the prototype (for example a config key named like a method) are not modelled.
- LangUtil: translation content is a `Json` value. Only own properties are looked up.
- DressCode.ErrorsBounds: the errors are no larger than the larger raw count only for a non-negative tolerance. A negative tolerance adds errors, as the source's subtraction does.

## Findings

| source | as written | input that shows it | evidently intended | confidence | as-written member | corrected member |
|---|---|---|---|---|---|---|
| lib/gtlib.js:1466-1475 | the backspace key's enabled flag is read from the enter key | a layout with a backspace key and no enter key, buffer "a" | each present key is enabled iff the buffer is non-empty | not executed | Keyboard.UpdateKeyStatesMissingEnter | Keyboard.UpdateKeyStates |
| lib/utils/ArrayUtil.js:22-38 | `typeof array == 'object'` admits null, and `null.length` then throws | `disposeArray(null, true)` | null, like other non-arrays, is left alone | not executed | ArrayUtil.DisposeArrayAsWritten | ArrayUtil.DisposeArray |

=== FILE: arrayutil.dfy ===
/** GTLib.ArrayUtil: emptying an array while destroying its elements, and
    appending one array to another. */
module ArrayUtil {
  import opened Wrappers

  /** An array element: truthy or not, and whether it has a truthy `destroy`
      member. */
  datatype Element = Element(id: int, truthy: bool, hasDestroy: bool)

  /** The argument handed to disposeArray, by its `typeof`: an array, null
      (whose typeof is also 'object'), an object without a length, or
      anything else. */
  datatype Disposable = Items(items: seq<Element>) | Null | PlainObject | NotAnObject

  predicate Destroyable(e: Element) {
    e.truthy && e.hasDestroy
  }

  /** The elements destroyed while popping `s` empty, in the order of the calls. */
  function Destroyed(s: seq<Element>, callDestroy: bool): seq<Element>
    decreases |s|
  {
    if |s| == 0 then []
    else
      var last := s[|s| - 1];
      (if callDestroy && Destroyable(last) then [last] else []) + Destroyed(s[..|s| - 1], callDestroy)
  }

  function Filter(s: seq<Element>): seq<Element>
    decreases |s|
  {
    if |s| == 0 then []
    else (if Destroyable(s[0]) then [s[0]] else []) + Filter(s[1..])
  }

  function Reverse(s: seq<Element>): seq<Element>
    decreases |s|
  {
    if |s| == 0 then [] else Reverse(s[1..]) + [s[0]]
  }

  /** Loop state of the destroying loop after popping down to `i` elements. */
  ghost predicate Popped(items: seq<Element>, callDestroy: bool, i: int, remaining: seq<Element>, destroyed: seq<Element>) {
    0 <= i <= |items| && remaining == items[..i] &&
    destroyed + Destroyed(remaining, callDestroy) == Destroyed(items, callDestroy)
  }

  /** The destroying loop: pops the last element n times, calling destroy on
      those that have it when asked to. */
  method PopAll(items: seq<Element>, callDestroy: bool) returns (remaining: seq<Element>, destroyed: seq<Element>)
    ensures remaining == []
    ensures destroyed == Destroyed(items, callDestroy)
  {
    remaining := items;
    destroyed := [];
    var i := |items|;
    while i > 0
      invariant Popped(items, callDestroy, i, remaining, destroyed)
    {
      var element := remaining[|remaining| - 1];
      var next := if callDestroy && Destroyable(element) then destroyed + [element] else destroyed;
      PopStep(items, callDestroy, i, remaining, destroyed, next);
      remaining, destroyed := remaining[..|remaining| - 1], next;
      i := i - 1;
    }
  }

  /** Popping one more element moves it, if destroyed, to the end of the trace. */
  lemma PopStep(items: seq<Element>, callDestroy: bool, i: int, remaining: seq<Element>, destroyed: seq<Element>, next: seq<Element>)
    requires Popped(items, callDestroy, i, remaining, destroyed) && i > 0
    requires var last := remaining[|remaining| - 1];
      next == destroyed + (if callDestroy && Destroyable(last) then [last] else [])
    ensures Popped(items, callDestroy, i - 1, remaining[..|remaining| - 1], next)
  {
    var last := remaining[|remaining| - 1];
    var init := remaining[..|remaining| - 1];
    assert init == items[..i - 1];
    var head := if callDestroy && Destroyable(last) then [last] else [];
    assert Destroyed(remaining, callDestroy) == head + Destroyed(init, callDestroy);
    assert destroyed + (head + Destroyed(init, callDestroy)) == (destroyed + head) + Destroyed(init, callDestroy);
  }

  lemma {:induction false} ReverseAppend(a: seq<Element>, b: seq<Element>)
    ensures Reverse(a + b) == Reverse(b) + Reverse(a)
    decreases |a|
  {
    if |a| == 0 {
      assert a + b == b;
    } else {
      assert (a + b)[1..] == a[1..] + b;
      ReverseAppend(a[1..], b);
    }
  }

  lemma {:induction false} FilterSnoc(s: seq<Element>, e: Element)
    ensures Filter(s + [e]) == Filter(s) + (if Destroyable(e) then [e] else [])
    decreases |s|
  {
    var tail := if Destroyable(e) then [e] else [];
    if |s| == 0 {
      assert Filter([e]) == tail + Filter([]);
      assert [] + [e] == [e];
    } else {
      var head := if Destroyable(s[0]) then [s[0]] else [];
      assert Filter(s + [e]) == head + Filter(s[1..] + [e]) by {
        assert (s + [e])[0] == s[0];
        assert (s + [e])[1..] == s[1..] + [e];
      }
      FilterSnoc(s[1..], e);
      assert head + (Filter(s[1..]) + tail) == (head + Filter(s[1..])) + tail;
    }
  }

  /** With callDestroy, exactly the elements that have a destroy member are
      destroyed, from the last to the first; without it none is. */
  lemma {:induction false} DestroyedLastToFirst(s: seq<Element>, callDestroy: bool)
    ensures Destroyed(s, callDestroy) == (if callDestroy then Reverse(Filter(s)) else [])
    decreases |s|
  {
    if |s| > 0 {
      var init, last := s[..|s| - 1], s[|s| - 1];
      DestroyedLastToFirst(init, callDestroy);
      if callDestroy {
        assert s == init + [last];
        FilterSnoc(init, last);
        var tail := if Destroyable(last) then [last] else [];
        ReverseAppend(Filter(init), tail);
        assert Reverse(tail) == tail by {
          if Destroyable(last) {
            assert Reverse([last]) == Reverse([]) + [last];
          }
        }
      }
    }
  }

  /** disposeArray as written: an array is popped empty; null passes the
      typeof test and then fails on reading its length; anything else is
      left alone. */
  method DisposeArrayAsWritten(arg: Disposable, callDestroy: bool) returns (r: Result<(Disposable, seq<Element>)>)
    ensures r.Failure? <==> arg.Null?
    ensures arg.Items? ==> r == Success((Items([]), Destroyed(arg.items, callDestroy)))
    ensures arg.PlainObject? || arg.NotAnObject? ==> r == Success((arg, []))
  {
    match arg
    case Items(items) =>
      var remaining, destroyed := PopAll(items, callDestroy);
      return Success((Items(remaining), destroyed));
    case Null =>
      return Failure("cannot read properties of null");
    case _ =>
      return Success((arg, []));
  }

  /** disposeArray as intended: like the code, but null is left alone like
      every other non-array. */
  method DisposeArray(arg: Disposable, callDestroy: bool) returns (r: (Disposable, seq<Element>))
    ensures arg.Items? ==> r.0 == Items([])
    ensures arg.Items? ==> r.1 == (if callDestroy then Reverse(Filter(arg.items)) else [])
    ensures !arg.Items? ==> r == (arg, [])
  {
    match arg
    case Items(items) =>
      var remaining, destroyed := PopAll(items, callDestroy);
      DestroyedLastToFirst(items, callDestroy);
      return (Items(remaining), destroyed);
    case _ =>
      return (arg, []);
  }

  /** Both versions agree on every argument except null. */
  method DisposeVersionsAgree(arg: Disposable, callDestroy: bool) returns (written: Result<(Disposable, seq<Element>)>, intended: (Disposable, seq<Element>))
    requires !arg.Null?
    ensures written == Success((intended.0, if arg.Items? then Destroyed(arg.items, callDestroy) else []))
    ensures written.Success? && written.value.0 == intended.0
  {
    written := DisposeArrayAsWritten(arg, callDestroy);
    intended := DisposeArray(arg, callDestroy);
  }

  /** merge: pushes every element of the second array onto the first, in
      order, and returns the first. */
  method Merge<T>(arrayToReturn: seq<T>, arrayToAdd: seq<T>) returns (r: seq<T>)
    ensures r == arrayToReturn + arrayToAdd
    ensures |r| == |arrayToReturn| + |arrayToAdd|
  {
    var n := |arrayToAdd|;
    r := arrayToReturn;
    for i := 0 to n
      invariant r == arrayToReturn + arrayToAdd[..i]
    {
      r := r + [arrayToAdd[i]];
    }
    assert arrayToAdd[..n] == arrayToAdd;
  }
}

=== FILE: config.dfy ===
/** Fashion.Config: the game configuration, filled from a parsed JSON value. */
module Config {
  import opened Wrappers
  import opened Json

  /** The configuration's own properties. */
  datatype Config = Config(props: map<string, Json>)

  /** parseConfig: refuses a falsy value, and otherwise copies every
      property a for-in loop visits over the current ones. */
  function ParseConfig(cfg: Config, config: Json): (r: Result<Config>)
    ensures r.Failure? <==> Falsy(config)
    ensures r.Success? ==> forall k :: k in Enumerable(config) ==>
      k in r.value.props && r.value.props[k] == Enumerable(config)[k]
    ensures r.Success? ==> forall k :: k !in Enumerable(config) ==>
      (k in r.value.props <==> k in cfg.props) &&
      (k in cfg.props ==> r.value.props[k] == cfg.props[k])
  {
    if Falsy(config) then Failure("failed to parse invalid config")
    else Success(Config(cfg.props + Enumerable(config)))
  }

  /** Parsing the same value a second time changes nothing more. */
  lemma ParseConfigIdempotent(cfg: Config, config: Json)
    requires !Falsy(config)
    ensures var once := ParseConfig(cfg, config).value;
      ParseConfig(once, config) == Success(once)
  {
    var once := ParseConfig(cfg, config).value;
    assert once.props + Enumerable(config) == once.props;
  }

  /** A truthy number or `true` has no enumerable properties, so parsing it
      leaves the configuration as it was. */
  lemma ParsePrimitiveKeepsConfig(cfg: Config, config: Json)
    requires config.JNum? || config.JBool?
    requires !Falsy(config)
    ensures ParseConfig(cfg, config) == Success(cfg)
  {
    assert cfg.props + map[] == cfg.props;
  }

  /** getFontStyle: the `fonts` entry's property for the key; failing when
      there are no fonts or the property is missing or falsy. */
  function GetFontStyle(cfg: Config, key: string): (r: Result<Json>)
    ensures r.Success? <==>
      "fonts" in cfg.props && !Falsy(cfg.props["fonts"]) &&
      HasOwn(cfg.props["fonts"], key) && !Falsy(Get(cfg.props["fonts"], key))
    ensures r.Success? ==> r.value == Get(cfg.props["fonts"], key) && !Falsy(r.value)
  {
    if "fonts" !in cfg.props || Falsy(cfg.props["fonts"]) then Failure("font style not found")
    else
      var fonts := cfg.props["fonts"];
      if !HasOwn(fonts, key) || Falsy(Get(fonts, key)) then Failure("font style not found")
      else Success(Get(fonts, key))
  }

  /** A font style given by the last parsed configuration object is the one
      returned. */
  lemma ParsedFontStyleFound(cfg: Config, fields: map<string, Json>, key: string)
    requires "fonts" in fields && fields["fonts"].JObj?
    requires key in fields["fonts"].fields && !Falsy(fields["fonts"].fields[key])
    ensures GetFontStyle(ParseConfig(cfg, JObj(fields)).value, key) == Success(fields["fonts"].fields[key])
  {
  }
}

=== FILE: countdown.dfy ===
/** GTLib.CountDown: a text that counts down once a second and reports
    completion after showing zero. */
module CountDown {
  import opened Wrappers
  import opened Decimal

  datatype CountDown = CountDown(
    startNumber: int,
    textComplete: Option<string>,
    currentStep: int,
    running: bool,
    text: string,
    visible: bool)

  /** The constructor: a zero start number falls back to 3 and an empty
      completion text to none; the text starts hidden. */
  function New(startNumber: int, textComplete: string): (cd: CountDown)
    ensures cd.startNumber != 0 && !cd.running && !cd.visible && cd.currentStep == 0
    ensures startNumber != 0 ==> cd.startNumber == startNumber
    ensures textComplete != "" <==> cd.textComplete == Some(textComplete)
  {
    var start := if startNumber == 0 then 3 else startNumber;
    CountDown(start, if textComplete == "" then None else Some(textComplete), 0, false, IntToString(start), false)
  }

  /** What the text shows for a number: the completion text at zero if set. */
  function Shown(cd: CountDown, number: int): string {
    if number == 0 && cd.textComplete.Some? then cd.textComplete.value else IntToString(number)
  }

  /** display: shows a number and makes it the current step. */
  function Display(cd: CountDown, number: int): (r: CountDown)
    ensures r.currentStep == number && r.text == Shown(cd, number)
  {
    cd.(text := Shown(cd, number), currentStep := number)
  }

  /** start: unless already running, shows the given count (or the start
      number when none or a negative one is given) and starts the timer. */
  function Start(cd: CountDown, count: Option<int>): (r: CountDown)
    ensures cd.running ==> r == cd
    ensures !cd.running ==> r.running && r.visible
    ensures !cd.running && count.Some? && count.value >= 0 ==> r.currentStep == count.value
    ensures !cd.running && (count.None? || count.value < 0) ==> r.currentStep == cd.startNumber
  {
    if cd.running then cd
    else
      var shown := if count.Some? && count.value >= 0 then Display(cd, count.value) else Display(cd, cd.startNumber);
      shown.(visible := true, running := true)
  }

  /** stop: hides the text, resets its text and stops the timer. */
  function Stop(cd: CountDown): (r: CountDown)
    ensures !r.running && !r.visible && r.text == IntToString(cd.startNumber)
    ensures r.startNumber == cd.startNumber && r.textComplete == cd.textComplete && r.currentStep == cd.currentStep
  {
    cd.(visible := false, text := IntToString(cd.startNumber), running := false)
  }

  /** onStep: shows the next lower number, or, once zero (or less) is shown,
      stops and reports completion. */
  function OnStep(cd: CountDown): (r: (CountDown, bool))
    ensures r.1 <==> cd.currentStep <= 0
    ensures r.1 ==> !r.0.running && !r.0.visible
    ensures !r.1 ==> r.0.currentStep == cd.currentStep - 1 && r.0.running == cd.running
    ensures !r.1 ==> r.0.visible == cd.visible && r.0.text == Shown(cd, cd.currentStep - 1)
    ensures r.0.startNumber == cd.startNumber && r.0.textComplete == cd.textComplete
  {
    if cd.currentStep > 0 then (Display(cd, cd.currentStep - 1), false)
    else (Stop(cd), true)
  }

  /** The count down after `n` timer steps, and whether it completed. */
  function Steps(cd: CountDown, n: nat): (CountDown, bool)
    decreases n
  {
    if n == 0 then (cd, false)
    else
      var (next, done) := OnStep(cd);
      if done then (next, true) else Steps(next, n - 1)
  }

  /** From step c >= 0, the first k <= c timer steps show c-1 down to c-k
      without completing. */
  lemma {:induction false} CountsDown(cd: CountDown, k: nat)
    requires cd.running && k <= cd.currentStep
    ensures Steps(cd, k) == (if k == 0 then cd else Display(cd, cd.currentStep - k), false)
    decreases k
  {
    if k > 0 {
      var next := Display(cd, cd.currentStep - 1);
      assert OnStep(cd) == (next, false);
      CountsDown(next, k - 1);
    }
  }

  /** Started at a count c >= 0, the count down completes on exactly its
      (c+1)-th step. */
  lemma StartedCountDownCompletes(cd: CountDown, c: nat)
    requires !cd.running
    ensures var started := Start(cd, Some(c));
      !Steps(started, c).1 && Steps(started, c + 1).1
  {
    var started := Start(cd, Some(c));
    CountsDown(started, c);
    StepsSplit(started, c);
  }

  lemma {:induction false} StepsSplit(cd: CountDown, n: nat)
    requires !Steps(cd, n).1
    ensures Steps(cd, n + 1) == OnStep(Steps(cd, n).0)
    decreases n
  {
    if n > 0 {
      StepsSplit(OnStep(cd).0, n - 1);
    }
  }
}

=== FILE: decimal.dfy ===
/** Decimal digit strings and their grouping into blocks of three, shared by the
    score formatter and the number formatter. */
module Decimal {

  predicate IsDigit(c: char) {
    '0' <= c <= '9'
  }

  predicate AllDigits(s: string) {
    forall i :: 0 <= i < |s| ==> IsDigit(s[i])
  }

  function DigitChar(d: nat): (c: char)
    requires d < 10
    ensures IsDigit(c) && c as int - '0' as int == d
  {
    ('0' as int + d) as char
  }

  function DigitValue(c: char): (d: nat)
    requires IsDigit(c)
    ensures d < 10 && DigitChar(d) == c
  {
    (c as int - '0' as int) as nat
  }

  /** The decimal representation of `n` without leading zeros, as a number's
      `toString` produces it for a non-negative integer. */
  function NatToString(n: nat): (s: string)
    ensures |s| >= 1 && AllDigits(s)
    ensures s[0] == '0' <==> n == 0
    decreases n
  {
    if n < 10 then [DigitChar(n)] else NatToString(n / 10) + [DigitChar(n % 10)]
  }

  /** The value of a digit string read in base ten. */
  function ParseDigits(s: string): nat
    requires AllDigits(s)
    decreases |s|
  {
    if |s| == 0 then 0 else ParseDigits(s[..|s| - 1]) * 10 + DigitValue(s[|s| - 1])
  }

  /** A digit string as `toString` writes a non-negative integer: non-empty and
      without a leading zero unless it is exactly "0". */
  predicate IsCanonical(s: string) {
    |s| >= 1 && AllDigits(s) && (s[0] == '0' ==> |s| == 1)
  }

  /** The decimal representation of any integer: a minus sign for negatives. */
  function IntToString(i: int): string {
    if i < 0 then "-" + NatToString(-i) else NatToString(i)
  }

  lemma {:induction false} ParseNatToString(n: nat)
    ensures ParseDigits(NatToString(n)) == n
    decreases n
  {
    if n >= 10 {
      var q, r := n / 10, n % 10;
      var s := NatToString(n);
      assert s == NatToString(q) + [DigitChar(r)];
      assert s[..|s| - 1] == NatToString(q);
      ParseNatToString(q);
      assert ParseDigits(s) == ParseDigits(NatToString(q)) * 10 + DigitValue(DigitChar(r));
      assert q * 10 + r == n;
    }
  }

  lemma NatToStringCanonical(n: nat)
    ensures IsCanonical(NatToString(n))
  {
  }

  /** Equal strings come from equal numbers: NatToString is injective. */
  lemma NatToStringInjective(m: nat, n: nat)
    requires NatToString(m) == NatToString(n)
    ensures m == n
  {
    ParseNatToString(m);
    ParseNatToString(n);
  }

  /** Dropping the last digit is integer division by ten. */
  lemma DropLastDigit(n: nat)
    requires n >= 10
    ensures |NatToString(n)| == |NatToString(n / 10)| + 1
    ensures NatToString(n)[..|NatToString(n)| - 1] == NatToString(n / 10)
  {
  }

  /** Dropping the last three digits is integer division by a thousand. */
  lemma {:induction false} DropLastThreeDigits(n: nat)
    requires n >= 1000
    ensures |NatToString(n)| == |NatToString(n / 1000)| + 3
    ensures NatToString(n)[..|NatToString(n)| - 3] == NatToString(n / 1000)
  {
    var s := NatToString(n);
    DropLastDigit(n);
    DropLastDigit(n / 10);
    DropLastDigit(n / 100);
    assert n / 10 / 10 == n / 100;
    assert n / 100 / 10 == n / 1000;
    assert s[..|s| - 3] == s[..|s| - 1][..|s| - 2][..|s| - 3];
  }

  /** A positive number below a thousand has at most three digits. */
  lemma {:induction false} ShortNumber(n: nat)
    requires n < 1000
    ensures |NatToString(n)| <= 3
  {
    if n >= 10 {
      DropLastDigit(n);
      if n / 10 >= 10 {
        DropLastDigit(n / 10);
        assert n / 10 / 10 < 10;
      }
    }
  }

  /** A number of at least a thousand has more than three digits. */
  lemma LongNumber(n: nat)
    requires n >= 1000
    ensures |NatToString(n)| > 3
  {
    DropLastThreeDigits(n);
  }

  //--------------------------------------------------------------------------
  // Grouping in blocks of three, counted from the right
  //--------------------------------------------------------------------------

  /** Splits `s` into blocks of three characters counted from its end; the
      leading block holds whatever is left over. */
  function Chunks(s: string): seq<string>
    decreases |s|
  {
    if |s| <= 3 then [s] else Chunks(s[..|s| - 3]) + [s[|s| - 3..]]
  }

  /** The blocks written one after the other, with `sep` between neighbours. */
  function Join(cs: seq<string>, sep: string): string
    decreases |cs|
  {
    if |cs| == 0 then ""
    else if |cs| == 1 then cs[0]
    else Join(cs[..|cs| - 1], sep) + sep + cs[|cs| - 1]
  }

  /** The blocks written one after the other, without separators. */
  function Concat(cs: seq<string>): string
    decreases |cs|
  {
    if |cs| == 0 then "" else Concat(cs[..|cs| - 1]) + cs[|cs| - 1]
  }

  /** A grouping the formatters promise: a leading block of one to three
      characters followed by blocks of exactly three. */
  predicate WellGrouped(cs: seq<string>) {
    && |cs| >= 1
    && 1 <= |cs[0]| <= 3
    && forall i :: 1 <= i < |cs| ==> |cs[i]| == 3
  }

  /** `s` with `sep` inserted before every block of three counted from the right. */
  function Grouped(s: string, sep: string): string {
    Join(Chunks(s), sep)
  }

  /** Chunks cuts a non-empty string into a well-formed grouping of exactly
      ceil(|s|/3) blocks whose concatenation is the string itself. */
  lemma {:induction false} ChunksSpec(s: string)
    requires |s| >= 1
    ensures WellGrouped(Chunks(s))
    ensures Concat(Chunks(s)) == s
    ensures |Chunks(s)| == (|s| + 2) / 3
    decreases |s|
  {
    if |s| > 3 {
      var pre := s[..|s| - 3];
      ChunksSpec(pre);
      var cs := Chunks(s);
      assert cs[..|cs| - 1] == Chunks(pre);
      assert cs[0] == Chunks(pre)[0];
    }
  }

  /** The grouping is unique: any well-formed grouping of `s` is Chunks(s). */
  lemma {:induction false} ChunksUnique(cs: seq<string>, s: string)
    requires WellGrouped(cs) && Concat(cs) == s
    ensures cs == Chunks(s)
    decreases |cs|
  {
    if |cs| == 1 {
      assert Concat(cs) == cs[0];
    } else {
      var init := cs[..|cs| - 1];
      assert WellGrouped(init) by {
        assert init[0] == cs[0];
        forall i | 1 <= i < |init| ensures |init[i]| == 3 {
          assert init[i] == cs[i];
        }
      }
      var pre := Concat(init);
      assert s == pre + cs[|cs| - 1];
      assert |pre| >= 1 by {
        ConcatFirst(init);
      }
      ChunksUnique(init, pre);
      assert |s| > 3;
      assert s[..|s| - 3] == pre;
      assert s[|s| - 3..] == cs[|cs| - 1];
    }
  }

  /** The concatenation of a well-formed grouping is at least as long as its first block. */
  lemma {:induction false} ConcatFirst(cs: seq<string>)
    requires |cs| >= 1
    ensures |Concat(cs)| >= |cs[0]|
    decreases |cs|
  {
    if |cs| > 1 {
      ConcatFirst(cs[..|cs| - 1]);
    }
  }

  /** Joining one more block appends the separator and the block. */
  lemma JoinSnoc(cs: seq<string>, c: string, sep: string)
    requires |cs| >= 1
    ensures Join(cs + [c], sep) == Join(cs, sep) + sep + c
  {
    assert (cs + [c])[..|cs|] == cs;
  }

  /** The number of occurrences of `c` in `s`. */
  function Occurrences(s: string, c: char): nat
    decreases |s|
  {
    if |s| == 0 then 0
    else Occurrences(s[..|s| - 1], c) + (if s[|s| - 1] == c then 1 else 0)
  }

  lemma {:induction false} OccurrencesAppend(s: string, t: string, c: char)
    ensures Occurrences(s + t, c) == Occurrences(s, c) + Occurrences(t, c)
    decreases |t|
  {
    if |t| == 0 {
      assert s + t == s;
    } else {
      assert (s + t)[..|s + t| - 1] == s + t[..|t| - 1];
      OccurrencesAppend(s, t[..|t| - 1], c);
    }
  }

  lemma {:induction false} NoOccurrencesInDigits(s: string, c: char)
    requires AllDigits(s) && !IsDigit(c)
    ensures Occurrences(s, c) == 0
    decreases |s|
  {
    if |s| > 0 {
      NoOccurrencesInDigits(s[..|s| - 1], c);
    }
  }

  /** Grouping a digit string with a one-character non-digit separator inserts
      exactly one separator per block boundary, that is ceil(|s|/3) - 1. */
  lemma {:induction false} GroupedSeparatorCount(s: string, c: char)
    requires |s| >= 1 && AllDigits(s) && !IsDigit(c)
    ensures Occurrences(Grouped(s, [c]), c) == (|s| + 2) / 3 - 1
    decreases |s|
  {
    if |s| <= 3 {
      NoOccurrencesInDigits(s, c);
    } else {
      var pre := s[..|s| - 3];
      var last := s[|s| - 3..];
      GroupedSeparatorCount(pre, c);
      JoinSnoc(Chunks(pre), last, [c]);
      ChunksSpec(pre);
      OccurrencesAppend(Grouped(pre, [c]) + [c], last, c);
      OccurrencesAppend(Grouped(pre, [c]), [c], c);
      assert Occurrences([c], c) == 1 by {
        assert [c][..0] == [];
      }
      NoOccurrencesInDigits(last, c);
    }
  }

  /** Removing the separators from a grouped string gives back the string. */
  lemma {:induction false} UngroupGrouped(s: string, c: char)
    requires |s| >= 1 && AllDigits(s) && !IsDigit(c)
    ensures Strip(Grouped(s, [c]), c) == s
    decreases |s|
  {
    if |s| > 3 {
      var pre := s[..|s| - 3];
      var last := s[|s| - 3..];
      GroupedSnoc(s, c);
      var gp := Grouped(pre, [c]);
      assert Strip(gp, c) == pre by {
        UngroupGrouped(pre, c);
      }
      assert Strip(gp + [c] + last, c) == Strip(gp, c) + Strip([c], c) + Strip(last, c) by {
        StripAppend(gp + [c], last, c);
        StripAppend(gp, [c], c);
      }
      assert Strip(last, c) == last by {
        StripDigits(last, c);
      }
      assert Strip([c], c) == [] by {
        assert [c][..0] == [];
      }
      assert pre + last == s;
    } else {
      StripDigits(s, c);
    }
  }

  /** Grouping a string of more than three digits puts the separator before
      its last three. */
  lemma GroupedSnoc(s: string, c: char)
    requires |s| > 3
    ensures Grouped(s, [c]) == Grouped(s[..|s| - 3], [c]) + [c] + s[|s| - 3..]
  {
    var pre := s[..|s| - 3];
    assert Chunks(s) == Chunks(pre) + [s[|s| - 3..]];
    ChunksSpec(pre);
    JoinSnoc(Chunks(pre), s[|s| - 3..], [c]);
  }

  function Strip(s: string, c: char): string
    decreases |s|
  {
    if |s| == 0 then ""
    else Strip(s[..|s| - 1], c) + (if s[|s| - 1] == c then "" else [s[|s| - 1]])
  }

  lemma {:induction false} StripAppend(s: string, t: string, c: char)
    ensures Strip(s + t, c) == Strip(s, c) + Strip(t, c)
    decreases |t|
  {
    if |t| == 0 {
      assert s + t == s;
    } else {
      assert (s + t)[..|s + t| - 1] == s + t[..|t| - 1];
      StripAppend(s, t[..|t| - 1], c);
    }
  }

  lemma {:induction false} StripDigits(s: string, c: char)
    requires AllDigits(s) && !IsDigit(c)
    ensures Strip(s, c) == s
    decreases |s|
  {
    if |s| > 0 {
      StripDigits(s[..|s| - 1], c);
      assert s[..|s| - 1] + [s[|s| - 1]] == s;
    }
  }

  /** Grouping with a one-character separator adds one character per block boundary. */
  lemma {:induction false} GroupedLength(s: string, c: char)
    requires |s| >= 1
    ensures |Grouped(s, [c])| == |s| + |Chunks(s)| - 1
    decreases |s|
  {
    if |s| > 3 {
      var pre := s[..|s| - 3];
      GroupedLength(pre, c);
      JoinSnoc(Chunks(pre), s[|s| - 3..], [c]);
      ChunksSpec(pre);
    }
  }

  /** A grouped digit string starts with the string's first digit and holds
      only digits and the separator. */
  lemma {:induction false} GroupedChars(s: string, c: char)
    requires |s| >= 1 && AllDigits(s)
    ensures |Grouped(s, [c])| >= 1 && Grouped(s, [c])[0] == s[0]
    ensures forall i :: 0 <= i < |Grouped(s, [c])| ==> IsDigit(Grouped(s, [c])[i]) || Grouped(s, [c])[i] == c
    decreases |s|
  {
    if |s| > 3 {
      var pre := s[..|s| - 3];
      var last := s[|s| - 3..];
      var g := Grouped(s, [c]);
      var gp := Grouped(pre, [c]);
      GroupedSnoc(s, c);
      GroupedChars(pre, c);
      assert g == gp + [c] + last;
      forall i | 0 <= i < |g| ensures IsDigit(g[i]) || g[i] == c {
        if i < |gp| {
          assert g[i] == gp[i];
        } else if i > |gp| {
          assert g[i] == last[i - |gp| - 1];
        }
      }
    }
  }

  /** A canonical digit string is the decimal spelling of its value. */
  lemma {:induction false} CanonicalRoundTrip(s: string)
    requires IsCanonical(s)
    ensures NatToString(ParseDigits(s)) == s
  {
    var n := ParseDigits(s);
    NatToStringCanonical(n);
    ParseNatToString(n);
    CanonicalUnique(s, NatToString(n));
  }

  /** Two canonical digit strings with the same value are equal. */
  lemma {:induction false} CanonicalUnique(s: string, t: string)
    requires IsCanonical(s) && IsCanonical(t) && ParseDigits(s) == ParseDigits(t)
    ensures s == t
    decreases |s|
  {
    if |s| == 1 && |t| == 1 {
      ShortValue(s);
      ShortValue(t);
    } else if |s| == 1 {
      ShortValue(s);
      LongValue(t);
    } else if |t| == 1 {
      ShortValue(t);
      LongValue(s);
    } else {
      var s', t' := s[..|s| - 1], t[..|t| - 1];
      assert ParseDigits(s) == 10 * ParseDigits(s') + DigitValue(s[|s| - 1]);
      assert ParseDigits(t) == 10 * ParseDigits(t') + DigitValue(t[|t| - 1]);
      assert IsCanonical(s') && IsCanonical(t');
      CanonicalUnique(s', t');
      assert s == s' + [s[|s| - 1]];
      assert t == t' + [t[|t| - 1]];
    }
  }

  lemma ShortValue(s: string)
    requires IsCanonical(s) && |s| == 1
    ensures ParseDigits(s) == DigitValue(s[0]) && ParseDigits(s) < 10
    ensures forall c :: IsDigit(c) && DigitValue(c) == DigitValue(s[0]) ==> c == s[0]
  {
    assert ParseDigits(s) == 10 * ParseDigits([]) + DigitValue(s[0]);
  }

  /** A canonical digit string of two or more digits is at least 10. */
  lemma {:induction false} LongValue(s: string)
    requires IsCanonical(s) && |s| >= 2
    ensures ParseDigits(s) >= 10
    decreases |s|
  {
    var s' := s[..|s| - 1];
    assert IsCanonical(s');
    if |s'| >= 2 {
      LongValue(s');
    } else {
      assert s'[0] == s[0] && s[0] != '0';
      assert ParseDigits(s') == 10 * ParseDigits([]) + DigitValue(s'[0]);
    }
  }
}

=== FILE: dresscode.dfy ===
/** The checkpoint dress-code check (Fashion.DressUpSpace#performDressCodeCheck):
    a faction's rules are applied to the character's coverage and turned into
    coverage errors, limit errors, a penalty and an outcome. */
module DressCode {
  import opened Wrappers
  import opened Enums

  /** The style worn on each covered body part. */
  type Coverage = map<BodyPart, ClothingStyle>

  /** A faction's clothing rules. A part or style missing from a rule map has
      no rule; limits may be any number the content supplies. */
  datatype Rules = Rules(
    must: map<BodyPart, ClothingStyle>,
    mustNot: map<BodyPart, ClothingStyle>,
    minStyle: map<ClothingStyle, int>,
    maxStyle: map<ClothingStyle, int>)

  /** A faction's dress code: its rules and how broken rules are charged. */
  datatype Code = Code(
    rules: Rules,
    failTolerance: int,
    penaltyPerFail: int,
    penaltyLimit: int)

  /** The checkpoint's decision. */
  datatype Outcome = Denied | Passed | PassedWithPayment(amount: int)

  datatype Verdict = Verdict(
    errorsCoverage: nat,
    errorsLimits: nat,
    errors: int,
    penalty: int,
    outcome: Outcome)

  //--------------------------------------------------------------------------
  // Reference definitions
  //--------------------------------------------------------------------------

  function MustRule(rules: Rules, p: BodyPart): Option<ClothingStyle> {
    if p in rules.must then Some(rules.must[p]) else None
  }

  function MustNotRule(rules: Rules, p: BodyPart): Option<ClothingStyle> {
    if p in rules.mustNot then Some(rules.mustNot[p]) else None
  }

  function MinLimit(rules: Rules, s: ClothingStyle): Option<int> {
    if s in rules.minStyle then Some(rules.minStyle[s]) else None
  }

  function MaxLimit(rules: Rules, s: ClothingStyle): Option<int> {
    if s in rules.maxStyle then Some(rules.maxStyle[s]) else None
  }

  predicate Wears(cov: Coverage, s: ClothingStyle, p: BodyPart) {
    p in cov && cov[p] == s
  }

  /** A worn part whose `must` rule names a different style. */
  predicate BreaksMust(cov: Coverage, rules: Rules, p: BodyPart) {
    p in cov && MustRule(rules, p).Some? && MustRule(rules, p).value != cov[p]
  }

  /** A worn part whose `mustNot` rule names the style worn. */
  predicate BreaksMustNot(cov: Coverage, rules: Rules, p: BodyPart) {
    p in cov && MustNotRule(rules, p).Some? && MustNotRule(rules, p).value == cov[p]
  }

  /** How many covered parts show style `s`. */
  function StyleCount(cov: Coverage, s: ClothingStyle): nat {
    |set p | p in cov && Wears(cov, s, p)|
  }

  /** Broken `must` rules plus broken `mustNot` rules. */
  function CoverageErrors(cov: Coverage, rules: Rules): nat {
    |set p | p in cov && BreaksMust(cov, rules, p)| + |set p | p in cov && BreaksMustNot(cov, rules, p)|
  }

  /** How far a count lies above its maximum and below its minimum; an absent
      limit contributes nothing. */
  function StyleLimitErrors(rules: Rules, s: ClothingStyle, count: nat): nat {
    (match MaxLimit(rules, s)
     case Some(max) => if count - max < 0 then 0 else count - max
     case None => 0)
    +
    (match MinLimit(rules, s)
     case Some(min) => if min - count < 0 then 0 else min - count
     case None => 0)
  }

  function LimitErrorsOver(cov: Coverage, rules: Rules, styles: seq<ClothingStyle>): nat
    decreases |styles|
  {
    if |styles| == 0 then 0
    else LimitErrorsOver(cov, rules, styles[..|styles| - 1])
         + StyleLimitErrors(rules, styles[|styles| - 1], StyleCount(cov, styles[|styles| - 1]))
  }

  /** Limit errors summed over all five styles. */
  function LimitErrors(cov: Coverage, rules: Rules): nat {
    LimitErrorsOver(cov, rules, AllStyles)
  }

  /** From raw error counts to the verdict: the larger count, less the
      tolerance and floored at zero, costs `penaltyPerFail` each; a penalty
      above the limit fails the check, any other positive one is demanded. */
  function Judge(code: Code, errorsCoverage: nat, errorsLimits: nat): Verdict {
    var raw := if errorsCoverage >= errorsLimits then errorsCoverage else errorsLimits;
    var excess := raw - code.failTolerance;
    var errors := if excess < 0 then 0 else excess;
    var penalty := errors * code.penaltyPerFail;
    var outcome :=
      if penalty > code.penaltyLimit then Denied
      else if penalty > 0 then PassedWithPayment(penalty)
      else Passed;
    Verdict(errorsCoverage, errorsLimits, errors, penalty, outcome)
  }

  /** The whole check as one pure function of coverage and dress code. */
  function Check(cov: Coverage, code: Code): Verdict {
    Judge(code, CoverageErrors(cov, code.rules), LimitErrors(cov, code.rules))
  }

  //--------------------------------------------------------------------------
  // The source's loops
  //--------------------------------------------------------------------------

  /** The parts among the first `k` of AllParts that satisfy `P`. */
  function PartsAmong(k: nat, P: BodyPart -> bool): set<BodyPart>
    requires k <= |AllParts|
  {
    set p | p in AllParts[..k] && P(p)
  }

  /** Filtering one more part of a duplicate-free sequence adds it to the
      filtered set exactly when it qualifies. */
  lemma FilterStep(xs: seq<BodyPart>, k: nat, P: BodyPart -> bool)
    requires k < |xs| && xs[k] !in xs[..k]
    ensures |set x | x in xs[..k + 1] && P(x)| == |set x | x in xs[..k] && P(x)| + (if P(xs[k]) then 1 else 0)
  {
    var before := set x | x in xs[..k] && P(x);
    var after := set x | x in xs[..k + 1] && P(x);
    assert xs[..k + 1] == xs[..k] + [xs[k]];
    if P(xs[k]) {
      assert after == before + {xs[k]};
    } else {
      assert after == before;
    }
  }

  /** Looking at one more body part adds it to the tally exactly when it qualifies. */
  lemma PartsAmongStep(k: nat, P: BodyPart -> bool)
    requires k < |AllParts|
    ensures |PartsAmong(k + 1, P)| == |PartsAmong(k, P)| + (if P(AllParts[k]) then 1 else 0)
  {
    EnumsDistinct();
    assert forall i :: 0 <= i < k ==> AllParts[..k][i] != AllParts[k];
    FilterStep(AllParts, k, P);
    var before := set x | x in AllParts[..k] && P(x);
    var after := set x | x in AllParts[..k + 1] && P(x);
    assert |after| == |before| + (if P(AllParts[k]) then 1 else 0);
    assert PartsAmong(k, P) == before;
    assert PartsAmong(k + 1, P) == after;
  }

  /** The parts among the first `k` that show style `s`. */
  function WearersAmong(cov: Coverage, s: ClothingStyle, k: nat): set<BodyPart>
    requires k <= |AllParts|
  {
    PartsAmong(k, p => Wears(cov, s, p))
  }

  /** Once every part has been looked at, the tally is over all covered parts. */
  lemma PartsAmongAll(cov: Coverage, P: BodyPart -> bool)
    requires forall p :: P(p) ==> p in cov
    ensures PartsAmong(|AllParts|, P) == set p | p in cov && P(p)
  {
    assert AllParts[..|AllParts|] == AllParts;
    forall p | p in cov && P(p) ensures p in AllParts {
      AllPartsComplete(p);
    }
  }

  /** The tally after looking at the first `k` parts. */
  ghost predicate Tallied(cov: Coverage, rules: Rules, k: nat, styleCount: map<ClothingStyle, nat>, errorsCoverage: nat)
    requires k <= |AllParts|
  {
    && (forall s :: s in styleCount && styleCount[s] == |WearersAmong(cov, s, k)|)
    && errorsCoverage == |PartsAmong(k, p => BreaksMust(cov, rules, p))| + |PartsAmong(k, p => BreaksMustNot(cov, rules, p))|
  }

  /** Before the loop every style has been counted zero times. */
  lemma TallyStart(cov: Coverage, rules: Rules, styleCount: map<ClothingStyle, nat>)
    requires styleCount == map[Exposed := 0, Military := 0, Moderate := 0, Relaxed := 0, Strict := 0]
    ensures Tallied(cov, rules, 0, styleCount, 0)
  {
    forall s ensures s in styleCount && styleCount[s] == |WearersAmong(cov, s, 0)| {
      match s
      case Exposed =>
      case Relaxed =>
      case Moderate =>
      case Military =>
      case Strict =>
    }
  }

  /** The tally the loop performs for part number `k`. */
  lemma TallyStep(cov: Coverage, rules: Rules, k: nat, styleCount: map<ClothingStyle, nat>, errorsCoverage: nat,
                  styleCount': map<ClothingStyle, nat>, errorsCoverage': nat)
    requires k < |AllParts| && Tallied(cov, rules, k, styleCount, errorsCoverage)
    requires var part := AllParts[k];
      && styleCount' == (if part in cov then styleCount[cov[part] := styleCount[cov[part]] + 1] else styleCount)
      && errorsCoverage' == errorsCoverage
        + (if BreaksMust(cov, rules, part) then 1 else 0)
        + (if BreaksMustNot(cov, rules, part) then 1 else 0)
    ensures Tallied(cov, rules, k + 1, styleCount', errorsCoverage')
  {
    var part := AllParts[k];
    forall s ensures |WearersAmong(cov, s, k + 1)| == |WearersAmong(cov, s, k)| + (if Wears(cov, s, part) then 1 else 0) {
      PartsAmongStep(k, p => Wears(cov, s, p));
    }
    PartsAmongStep(k, p => BreaksMust(cov, rules, p));
    PartsAmongStep(k, p => BreaksMustNot(cov, rules, p));
  }

  /** A tally over every part is the reference count. */
  lemma TallyComplete(cov: Coverage, rules: Rules, styleCount: map<ClothingStyle, nat>, errorsCoverage: nat)
    requires Tallied(cov, rules, |AllParts|, styleCount, errorsCoverage)
    ensures forall s :: s in styleCount && styleCount[s] == StyleCount(cov, s)
    ensures errorsCoverage == CoverageErrors(cov, rules)
  {
    forall s ensures styleCount[s] == StyleCount(cov, s) {
      PartsAmongAll(cov, p => Wears(cov, s, p));
      assert WearersAmong(cov, s, |AllParts|) == set p | p in cov && Wears(cov, s, p);
    }
    PartsAmongAll(cov, p => BreaksMust(cov, rules, p));
    assert PartsAmong(|AllParts|, p => BreaksMust(cov, rules, p)) == set p | p in cov && BreaksMust(cov, rules, p);
    PartsAmongAll(cov, p => BreaksMustNot(cov, rules, p));
    assert PartsAmong(|AllParts|, p => BreaksMustNot(cov, rules, p)) == set p | p in cov && BreaksMustNot(cov, rules, p);
  }

  /** One pass of the loop body: counts the style worn on the part and the
      rules it breaks. */
  method CountPart(cov: Coverage, rules: Rules, part: BodyPart, styleCount: map<ClothingStyle, nat>, errorsCoverage: nat)
    returns (styleCount': map<ClothingStyle, nat>, errorsCoverage': nat)
    requires forall s :: s in styleCount
    ensures styleCount' == if part in cov then styleCount[cov[part] := styleCount[cov[part]] + 1] else styleCount
    ensures errorsCoverage' == errorsCoverage
      + (if BreaksMust(cov, rules, part) then 1 else 0)
      + (if BreaksMustNot(cov, rules, part) then 1 else 0)
  {
    styleCount', errorsCoverage' := styleCount, errorsCoverage;
    if part in cov {
      var worn := cov[part];
      styleCount' := styleCount'[worn := styleCount'[worn] + 1];
      if part in rules.must && rules.must[part] != worn {
        errorsCoverage' := errorsCoverage' + 1;
      }
      if part in rules.mustNot && rules.mustNot[part] == worn {
        errorsCoverage' := errorsCoverage' + 1;
      }
    }
  }

  /** The source's pass over the covered parts: it tallies how many parts show
      each style and counts broken `must` and `mustNot` rules. */
  method TallyCoverage(cov: Coverage, rules: Rules) returns (styleCount: map<ClothingStyle, nat>, errorsCoverage: nat)
    ensures forall s :: s in styleCount && styleCount[s] == StyleCount(cov, s)
    ensures errorsCoverage == CoverageErrors(cov, rules)
  {
    styleCount := map[Exposed := 0, Military := 0, Moderate := 0, Relaxed := 0, Strict := 0];
    errorsCoverage := 0;
    TallyStart(cov, rules, styleCount);
    var k := 0;
    while k < |AllParts|
      invariant 0 <= k <= |AllParts|
      invariant Tallied(cov, rules, k, styleCount, errorsCoverage)
    {
      var styleCount', errorsCoverage' := CountPart(cov, rules, AllParts[k], styleCount, errorsCoverage);
      TallyStep(cov, rules, k, styleCount, errorsCoverage, styleCount', errorsCoverage');
      styleCount, errorsCoverage := styleCount', errorsCoverage';
      k := k + 1;
    }
    TallyComplete(cov, rules, styleCount, errorsCoverage);
  }


  /** The source's pass over the five styles: each configured maximum and
      minimum adds how far the count lies beyond it. */
  method SumLimitErrors(cov: Coverage, rules: Rules, styleCount: map<ClothingStyle, nat>) returns (errorsLimits: nat)
    requires forall s :: s in styleCount && styleCount[s] == StyleCount(cov, s)
    ensures errorsLimits == LimitErrors(cov, rules)
  {
    errorsLimits := 0;
    var j := 0;
    while j < |AllStyles|
      invariant 0 <= j <= |AllStyles|
      invariant errorsLimits == LimitErrorsOver(cov, rules, AllStyles[..j])
    {
      var style := AllStyles[j];
      assert AllStyles[..j + 1][..j] == AllStyles[..j];
      var e := CountStyleLimits(rules, style, styleCount[style]);
      errorsLimits := errorsLimits + e;
      j := j + 1;
    }
    assert AllStyles[..|AllStyles|] == AllStyles;
  }

  /** One pass of the limits loop: the errors of a single style. */
  method CountStyleLimits(rules: Rules, style: ClothingStyle, count: nat) returns (e: nat)
    ensures e == StyleLimitErrors(rules, style, count)
  {
    e := 0;
    if style in rules.maxStyle {
      var num := count - rules.maxStyle[style];
      e := e + if num < 0 then 0 else num;
    }
    if style in rules.minStyle {
      var num := rules.minStyle[style] - count;
      e := e + if num < 0 then 0 else num;
    }
  }


  /** The body of performDressCodeCheck, following the source: one pass over
      the covered parts, one pass over the styles, then tolerance, penalty and
      outcome. */
  method EvaluateDressCode(cov: Coverage, code: Code) returns (v: Verdict)
    ensures v == Check(cov, code)
  {
    var styleCount, errorsCoverage := TallyCoverage(cov, code.rules);
    var errorsLimits := SumLimitErrors(cov, code.rules, styleCount);
    var errors := if errorsCoverage >= errorsLimits then errorsCoverage else errorsLimits;
    errors := errors - code.failTolerance;
    errors := if errors < 0 then 0 else errors;
    var penalty := errors * code.penaltyPerFail;
    var outcome: Outcome;
    if penalty > code.penaltyLimit {
      outcome := Denied;
    } else if penalty > 0 {
      outcome := PassedWithPayment(penalty);
    } else {
      outcome := Passed;
    }
    v := Verdict(errorsCoverage, errorsLimits, errors, penalty, outcome);
  }

  /** performDressCodeCheck for a faction: the faction's dress code is looked
      up first, and a faction without one makes the source fail on the missing
      record. */
  method PerformDressCodeCheck(cov: Coverage, codes: map<Faction, Code>, faction: Faction) returns (r: Result<Verdict>)
    ensures faction !in codes <==> r.Failure?
    ensures faction in codes ==> r == Success(Check(cov, codes[faction]))
  {
    if faction !in codes {
      return Failure("no dress code for faction");
    }
    var v := EvaluateDressCode(cov, codes[faction]);
    r := Success(v);
  }

  //--------------------------------------------------------------------------
  // Properties of the check
  //--------------------------------------------------------------------------

  function SumStyleCounts(cov: Coverage, styles: seq<ClothingStyle>): nat
    decreases |styles|
  {
    if |styles| == 0 then 0
    else SumStyleCounts(cov, styles[..|styles| - 1]) + StyleCount(cov, styles[|styles| - 1])
  }

  /** Summing the counts of distinct styles counts each covered part showing
      one of them exactly once. */
  lemma {:induction false} SumStyleCountsCovers(cov: Coverage, styles: seq<ClothingStyle>)
    requires Distinct(styles)
    ensures SumStyleCounts(cov, styles) == |set p | p in cov && cov[p] in styles|
    decreases |styles|
  {
    if |styles| == 0 {
      assert (set p | p in cov && cov[p] in styles) == {};
    } else {
      var init := styles[..|styles| - 1];
      var s := styles[|styles| - 1];
      assert Distinct(init);
      SumStyleCountsCovers(cov, init);
      var before := set p | p in cov && cov[p] in init;
      var wearers := set p | p in cov && Wears(cov, s, p);
      assert s !in init;
      assert before !! wearers;
      assert (set p | p in cov && cov[p] in styles) == before + wearers;
    }
  }

  /** The style counts start at zero and end up adding to the number of
      covered body parts: every covered part is counted under its one style. */
  lemma StyleCountsSumToCoverage(cov: Coverage)
    ensures SumStyleCounts(cov, AllStyles) == |cov|
  {
    EnumsDistinct();
    SumStyleCountsCovers(cov, AllStyles);
    forall p | p in cov ensures cov[p] in AllStyles {
      AllStylesComplete(cov[p]);
    }
    assert (set p | p in cov && cov[p] in AllStyles) == cov.Keys;
  }

  /** Each covered part breaks at most its two rules, so coverage errors never
      exceed twice the number of covered parts. */
  lemma CoverageErrorsBound(cov: Coverage, rules: Rules)
    ensures CoverageErrors(cov, rules) <= 2 * |cov|
  {
    var a := set p | p in cov && BreaksMust(cov, rules, p);
    var b := set p | p in cov && BreaksMustNot(cov, rules, p);
    assert a <= cov.Keys && b <= cov.Keys;
    SubsetCard(a, cov.Keys);
    SubsetCard(b, cov.Keys);
  }

  lemma SubsetCard(a: set<BodyPart>, b: set<BodyPart>)
    requires a <= b
    ensures |a| <= |b|
  {
    assert b == a + (b - a);
  }

  /** A coverage keeps the rules exactly when it causes no coverage errors. */
  lemma NoCoverageErrorsIffRulesKept(cov: Coverage, rules: Rules)
    ensures CoverageErrors(cov, rules) == 0 <==>
      forall p :: p in cov ==> !BreaksMust(cov, rules, p) && !BreaksMustNot(cov, rules, p)
  {
    var a := set q | q in cov && BreaksMust(cov, rules, q);
    var b := set q | q in cov && BreaksMustNot(cov, rules, q);
    assert forall p :: p in cov && BreaksMust(cov, rules, p) ==> p in a;
    assert forall p :: p in cov && BreaksMustNot(cov, rules, p) ==> p in b;
    assert (forall p :: p in cov ==> !BreaksMust(cov, rules, p)) ==> a == {} by {
      if forall p :: p in cov ==> !BreaksMust(cov, rules, p) {
        assert forall x :: x !in a;
      }
    }
    assert (forall p :: p in cov ==> !BreaksMustNot(cov, rules, p)) ==> b == {} by {
      if forall p :: p in cov ==> !BreaksMustNot(cov, rules, p) {
        assert forall x :: x !in b;
      }
    }
  }

  /** A style's count respects its configured maximum and minimum. */
  predicate WithinLimits(cov: Coverage, rules: Rules, s: ClothingStyle) {
    && (MaxLimit(rules, s).Some? ==> StyleCount(cov, s) <= MaxLimit(rules, s).value)
    && (MinLimit(rules, s).Some? ==> StyleCount(cov, s) >= MinLimit(rules, s).value)
  }

  lemma {:induction false} NoLimitErrorsOver(cov: Coverage, rules: Rules, styles: seq<ClothingStyle>)
    ensures LimitErrorsOver(cov, rules, styles) == 0 <==>
      forall i :: 0 <= i < |styles| ==> WithinLimits(cov, rules, styles[i])
    decreases |styles|
  {
    if |styles| > 0 {
      var init := styles[..|styles| - 1];
      NoLimitErrorsOver(cov, rules, init);
      assert forall i :: 0 <= i < |init| ==> init[i] == styles[i];
    }
  }

  /** Limit errors vanish exactly when every style count lies within its limits. */
  lemma NoLimitErrorsIffWithinLimits(cov: Coverage, rules: Rules)
    ensures LimitErrors(cov, rules) == 0 <==> forall s :: WithinLimits(cov, rules, s)
  {
    NoLimitErrorsOver(cov, rules, AllStyles);
    if forall i :: 0 <= i < |AllStyles| ==> WithinLimits(cov, rules, AllStyles[i]) {
      forall s ensures WithinLimits(cov, rules, s) {
        AllStylesComplete(s);
        var i :| 0 <= i < |AllStyles| && AllStyles[i] == s;
      }
    }
  }

  /** Errors after tolerance are never negative, vanish exactly when both
      raw counts lie within the tolerance, and, for a non-negative tolerance,
      never exceed the larger raw count. */
  lemma ErrorsBounds(cov: Coverage, code: Code)
    ensures var v := Check(cov, code);
      var raw := if v.errorsCoverage >= v.errorsLimits then v.errorsCoverage else v.errorsLimits;
      && v.errors >= 0
      && (v.errors == 0 <==> v.errorsCoverage <= code.failTolerance && v.errorsLimits <= code.failTolerance)
      && (code.failTolerance >= 0 ==> v.errors <= raw)
      && v.penalty == v.errors * code.penaltyPerFail
  {
  }

  /** Within the tolerance there is no penalty; the checkpoint is then passed
      without payment unless the penalty limit itself is negative. */
  lemma WithinToleranceNoPenalty(cov: Coverage, code: Code)
    requires CoverageErrors(cov, code.rules) <= code.failTolerance
    requires LimitErrors(cov, code.rules) <= code.failTolerance
    ensures Check(cov, code).penalty == 0
    ensures code.penaltyLimit >= 0 ==> Check(cov, code).outcome == Passed
  {
  }

  /** The outcome is decided by the penalty alone: denial exactly above the
      limit, and a payment demanded exactly when a positive penalty is allowed. */
  lemma OutcomeMeaning(cov: Coverage, code: Code)
    ensures var v := Check(cov, code);
      && (v.outcome == Denied <==> v.penalty > code.penaltyLimit)
      && (v.outcome.PassedWithPayment? <==> 0 < v.penalty <= code.penaltyLimit)
      && (v.outcome.PassedWithPayment? ==> v.outcome.amount == v.penalty)
  {
  }

  lemma MulMonotone(a: int, b: int, c: int)
    requires 0 <= a <= b && c >= 0
    ensures a * c <= b * c
  {
  }

  /** Raising the fail tolerance never raises the penalty, and never turns a
      pass into a denial, as long as each error costs a non-negative amount. */
  lemma {:induction false} ToleranceMonotone(cov: Coverage, code: Code, tolerance: int)
    requires code.penaltyPerFail >= 0 && tolerance >= code.failTolerance
    ensures Check(cov, code.(failTolerance := tolerance)).penalty <= Check(cov, code).penalty
    ensures Check(cov, code.(failTolerance := tolerance)).outcome == Denied ==> Check(cov, code).outcome == Denied
  {
    var v := Check(cov, code);
    var w := Check(cov, code.(failTolerance := tolerance));
    assert w.errors <= v.errors;
    MulMonotone(w.errors, v.errors, code.penaltyPerFail);
  }

  /** A coverage that keeps every rule and limit passes without payment
      whatever the tolerance, given a non-negative penalty limit. */
  lemma CompliantPasses(cov: Coverage, code: Code)
    requires forall p :: p in cov ==> !BreaksMust(cov, code.rules, p) && !BreaksMustNot(cov, code.rules, p)
    requires forall s :: WithinLimits(cov, code.rules, s)
    requires code.failTolerance >= 0 && code.penaltyLimit >= 0
    ensures Check(cov, code).penalty == 0 && Check(cov, code).outcome == Passed
  {
    NoCoverageErrorsIffRulesKept(cov, code.rules);
    NoLimitErrorsIffWithinLimits(cov, code.rules);
  }

  /** Every part shown in style `s`. */
  function Uniform(s: ClothingStyle): Coverage {
    map p: BodyPart | p in AllParts :: s
  }

  /** A dress code without rules that charges ten per error up to a hundred. */
  const NoRules: Code := Code(Rules(map[], map[], map[], map[]), 0, 10, 100)

  /** A fully exposed character at a checkpoint that wants a strict torso
      makes one coverage error, which costs ten at ten per fail. */
  lemma StrictTorsoExample()
    ensures var v := Check(Uniform(Exposed), NoRules.(rules := NoRules.rules.(must := map[Torso := Strict])));
      v.errorsCoverage == 1 && v.errorsLimits == 0 && v.errors == 1 && v.penalty == 10
      && v.outcome == PassedWithPayment(10)
  {
    var cov := Uniform(Exposed);
    var code := NoRules.(rules := NoRules.rules.(must := map[Torso := Strict]));
    assert (set p | p in cov && BreaksMust(cov, code.rules, p)) == {Torso};
    assert (set p | p in cov && BreaksMustNot(cov, code.rules, p)) == {};
    NoLimitErrorsIffWithinLimits(cov, code.rules);
  }

  /** Requiring at least three strict parts when only one is strict adds two
      limit errors. */
  lemma MinimumStrictExample()
    ensures var cov := Uniform(Exposed)[Torso := Strict];
      StyleLimitErrors(NoRules.rules.(minStyle := map[Strict := 3]), Strict, StyleCount(cov, Strict)) == 2
  {
    var cov := Uniform(Exposed)[Torso := Strict];
    assert (set p | p in cov && Wears(cov, Strict, p)) == {Torso};
  }
}

=== FILE: enums.dfy ===
/** The game's fixed vocabularies: body parts, clothing styles and factions. */
module Enums {

  /** The nine body parts a garment can cover. */
  datatype BodyPart = Eyes | Face | Hair | Torso | Arms | Hands | Thighs | Calves | Feet

  /** Clothing styles, informally ordered from least to most covered. */
  datatype ClothingStyle = Exposed | Relaxed | Moderate | Military | Strict

  /** The factions that run checkpoints, each with its own dress code. */
  datatype Faction = Fanatics | Government | Rebels | Marxists

  /** Every body part, each exactly once. */
  const AllParts: seq<BodyPart> := [Eyes, Face, Hair, Torso, Arms, Hands, Thighs, Calves, Feet]

  /** Every clothing style, each exactly once, in the order the style counter is initialised. */
  const AllStyles: seq<ClothingStyle> := [Exposed, Military, Moderate, Relaxed, Strict]

  /** Every faction, in the order of the faction list. */
  const AllFactions: seq<Faction> := [Fanatics, Government, Rebels, Marxists]

  predicate Distinct<T(==)>(xs: seq<T>) {
    forall i, j :: 0 <= i < j < |xs| ==> xs[i] != xs[j]
  }

  lemma AllPartsComplete(p: BodyPart)
    ensures p in AllParts
  {
  }

  lemma AllStylesComplete(s: ClothingStyle)
    ensures s in AllStyles
  {
  }

  lemma EnumsDistinct()
    ensures Distinct(AllParts) && |AllParts| == 9
    ensures Distinct(AllStyles) && |AllStyles| == 5
    ensures Distinct(AllFactions) && |AllFactions| == 4
  {
  }
}

=== FILE: formatutil.dfy ===
/** Fashion.FormatUtil: integer-to-text conversions with an apostrophe between
    every block of three digits. */
module FormatUtil {
  import opened Wrappers
  import opened Decimal

  /** The thousands separator the game uses. */
  const Apostrophe: char := '\''

  function Abs(n: int): nat {
    if n < 0 then -n else n
  }

  /** Reference for convertNumToString: an optional minus sign followed by the
      digits of |num| grouped in threes from the right. */
  function GroupedNumber(num: int): string {
    (if num < 0 then "-" else "") + Grouped(NatToString(Abs(num)), [Apostrophe])
  }

  /** Reads back a number written by GroupedNumber: an optional minus sign,
      then digits among which the apostrophes are ignored. */
  function ParseGroupedNumber(s: string): Option<int> {
    var negative := |s| > 0 && s[0] == '-';
    var digits := Strip(if negative then s[1..] else s, Apostrophe);
    if |digits| >= 1 && AllDigits(digits) then
      var v: int := ParseDigits(digits);
      Some(if negative then -v else v)
    else None
  }

  /** The apostrophes go after the first block and then after every third digit. */
  lemma InsertStep(s: string, p: nat)
    requires 1 <= p && p + 3 <= |s|
    ensures Grouped(s[..p], [Apostrophe]) + [Apostrophe] + s[p..]
         == Grouped(s[..p + 3], [Apostrophe]) + s[p + 3..]
  {
    assert s[..p + 3][..p] == s[..p];
    assert s[..p + 3][p..] == s[p..p + 3];
    JoinSnoc(Chunks(s[..p]), s[p..p + 3], [Apostrophe]);
    assert s[p..] == s[p..p + 3] + s[p + 3..];
  }

  /** The splice loop's state: the first `p` digits are grouped, the rest
      follow untouched, and `i` apostrophes have been inserted. */
  ghost predicate Spliced(s: string, p: int, i: int, parts: string) {
    && 1 <= p <= |s|
    && |parts| == |s| + i
    && |Grouped(s[..p], [Apostrophe])| == p + i
    && parts == Grouped(s[..p], [Apostrophe]) + s[p..]
  }

  /** Inserting an apostrophe at position p + i moves the grouped prefix on by one block. */
  lemma SpliceStep(s: string, p: int, i: int, parts: string)
    requires Spliced(s, p, i, parts) && p + 3 <= |s|
    ensures Spliced(s, p + 3, i + 1, parts[..p + i] + [Apostrophe] + parts[p + i..])
  {
    var g := Grouped(s[..p], [Apostrophe]);
    assert parts[..p + i] == g;
    assert parts[p + i..] == s[p..];
    InsertStep(s, p);
    GroupedLength(s[..p + 3], Apostrophe);
    GroupedLength(s[..p], Apostrophe);
    ChunksSpec(s[..p + 3]);
    ChunksSpec(s[..p]);
  }

  /** Before the loop: the leading block, one to three digits long, needs
      no apostrophe. */
  lemma SpliceStart(s: string, dotsCount: int)
    requires |s| >= 1
    requires dotsCount == if |s| % 3 == 0 then |s| / 3 - 1 else |s| / 3
    ensures dotsCount >= 0 && Spliced(s, |s| - 3 * dotsCount, 0, s)
  {
    var p := |s| - 3 * dotsCount;
    assert 1 <= p <= 3;
    assert Grouped(s[..p], [Apostrophe]) == s[..p];
    assert s == s[..p] + s[p..];
  }

  /** After the loop every block has its apostrophe. */
  lemma SpliceDone(s: string, i: int, parts: string)
    requires Spliced(s, |s|, i, parts)
    ensures parts == Grouped(s, [Apostrophe])
  {
    assert s[..|s|] == s;
    assert s[|s|..] == [];
  }

  /** convertNumToString, following the source: it computes how many
      apostrophes the digit string needs and splices them in from the left. */
  method ConvertNumToString(num: int) returns (r: string)
    ensures r == GroupedNumber(num)
  {
    var negative := num < 0;
    var parts := NatToString(Abs(num));
    ghost var s := parts;
    var n := |parts|;
    var dotsCount := if n % 3 == 0 then n / 3 - 1 else n / 3;
    var i := 0;
    SpliceStart(s, dotsCount);
    while dotsCount > 0
      invariant 0 <= dotsCount && n == |s|
      invariant Spliced(s, n - 3 * dotsCount, i, parts)
    {
      SpliceStep(s, n - 3 * dotsCount, i, parts);
      var at := n - 3 * dotsCount + i;
      parts := parts[..at] + [Apostrophe] + parts[at..];
      i := i + 1;
      dotsCount := dotsCount - 1;
    }
    SpliceDone(s, i, parts);
    if negative {
      parts := "-" + parts;
    }
    r := parts;
  }

  /** Without its apostrophes, convertNumToString's text is the integer's
      decimal representation. */
  lemma GroupedNumberStrip(num: int)
    ensures Strip(GroupedNumber(num), Apostrophe) == IntToString(num)
  {
    var d := NatToString(Abs(num));
    UngroupGrouped(d, Apostrophe);
    if num < 0 {
      StripAppend("-", Grouped(d, [Apostrophe]), Apostrophe);
      assert Strip("-", Apostrophe) == "-" by { assert "-"[..0] == ""; }
    } else {
      assert GroupedNumber(num) == Grouped(d, [Apostrophe]);
    }
  }

  /** A number of L digits is written with exactly ceil(L/3) - 1 apostrophes,
      one per well-formed block boundary. */
  lemma GroupedNumberSeparators(num: int)
    ensures Occurrences(GroupedNumber(num), Apostrophe) == (|NatToString(Abs(num))| + 2) / 3 - 1
    ensures WellGrouped(Chunks(NatToString(Abs(num))))
  {
    var d := NatToString(Abs(num));
    GroupedSeparatorCount(d, Apostrophe);
    ChunksSpec(d);
    if num < 0 {
      OccurrencesAppend("-", Grouped(d, [Apostrophe]), Apostrophe);
      assert Occurrences("-", Apostrophe) == 0 by { assert "-"[..0] == ""; }
    } else {
      assert GroupedNumber(num) == Grouped(d, [Apostrophe]);
    }
  }

  /** The text of a non-negative number starts with a digit, so only negative
      numbers start with a minus sign. */
  lemma GroupedNumberSign(num: int)
    ensures |GroupedNumber(num)| >= 1
    ensures GroupedNumber(num)[0] == '-' <==> num < 0
    ensures num < 0 ==> GroupedNumber(num)[1..] == Grouped(NatToString(Abs(num)), [Apostrophe])
  {
    GroupedChars(NatToString(Abs(num)), Apostrophe);
  }

  /** convertNumToString's text reads back as the number it was made from. */
  lemma GroupedNumberRoundTrip(num: int)
    ensures ParseGroupedNumber(GroupedNumber(num)) == Some(num)
  {
    var d := NatToString(Abs(num));
    GroupedNumberSign(num);
    UngroupGrouped(d, Apostrophe);
    ParseNatToString(Abs(num));
    if num >= 0 {
      assert GroupedNumber(num) == Grouped(d, [Apostrophe]);
    }
  }

  /** formatValue: a plus sign in front of positive values only. */
  method FormatValue(value: int) returns (r: string)
    ensures value > 0 <==> |r| > 0 && r[0] == '+'
    ensures ParseGroupedNumber(if value > 0 then r[1..] else r) == Some(value)
    ensures value <= 0 ==> r == GroupedNumber(value)
    ensures value > 0 ==> r == "+" + GroupedNumber(value)
  {
    var s := ConvertNumToString(value);
    GroupedNumberRoundTrip(value);
    GroupedNumberSign(value);
    r := if value > 0 then "+" + s else s;
    assert value > 0 ==> r[1..] == s;
  }

  /** makeNumberATwoDigitString: pads a one-character text with "0" and cuts
      a longer one to its first two characters. */
  method MakeNumberATwoDigitString(num: int) returns (r: string)
    ensures |r| == 2
    ensures 0 <= num < 100 ==> AllDigits(r) && ParseDigits(r) == num
    ensures num >= 100 ==> r == NatToString(num)[..2]
    ensures num < 0 ==> r[0] == '-' && r[1] == NatToString(-num)[0]
  {
    var s := IntToString(num);
    if |s| == 1 {
      r := "0" + s;
    } else if |s| > 2 {
      r := s[..2];
    } else {
      r := s;
    }
    if 0 <= num < 100 {
      ShortNumber(num);
      ParseNatToString(num);
      if |s| == 1 {
        assert r[..1] == "0";
      }
    }
    if num >= 100 {
      DropLastDigit(num);
      assert |NatToString(num / 10)| >= 2;
    }
  }

  /** convertNumberToPriceString: the grouped number followed by ",00". */
  method ConvertNumberToPriceString(num: int) returns (r: string)
    ensures |r| >= 4 && r[|r| - 3..] == ",00"
    ensures ParseGroupedNumber(r[..|r| - 3]) == Some(num)
    ensures r == GroupedNumber(num) + ",00"
  {
    var s := ConvertNumToString(num);
    GroupedNumberRoundTrip(num);
    GroupedNumberSign(num);
    r := s + ",00";
    assert r[..|r| - 3] == s;
  }

  /** The position of the first `c` in `s`, if any. */
  function FindChar(s: string, c: char): (k: Option<nat>)
    ensures k.Some? ==> k.value < |s| && s[k.value] == c
    ensures k.None? <==> c !in s
    decreases |s|
  {
    if |s| == 0 then None
    else if s[0] == c then Some(0)
    else match FindChar(s[1..], c)
      case Some(k) => Some(k + 1)
      case None => None
  }

  /** Reads back "A / B": the two numbers around the first " / ". */
  function ParseSlashPair(s: string): Option<(int, int)> {
    match FindChar(s, ' ')
    case None => None
    case Some(k) =>
      if k + 3 <= |s| && s[k..k + 3] == " / " then
        match (ParseGroupedNumber(s[..k]), ParseGroupedNumber(s[k + 3..]))
        case (Some(a), Some(b)) => Some((a, b))
        case _ => None
      else None
  }

  lemma {:induction false} FindCharAfter(a: string, b: string, c: char)
    requires c !in a && |b| > 0 && b[0] == c
    ensures FindChar(a + b, c) == Some(|a|)
    decreases |a|
  {
    if |a| > 0 {
      assert (a + b)[1..] == a[1..] + b;
      FindCharAfter(a[1..], b, c);
    } else {
      assert a + b == b;
    }
  }

  /** A grouped number holds no space. */
  lemma NoSpaceInGroupedNumber(num: int)
    ensures ' ' !in GroupedNumber(num)
  {
    var d := NatToString(Abs(num));
    var gd := Grouped(d, [Apostrophe]);
    GroupedChars(d, Apostrophe);
    var g := GroupedNumber(num);
    forall i | 0 <= i < |g| ensures g[i] != ' ' {
      if num >= 0 {
        assert g == gd;
      } else if i > 0 {
        assert g[i] == gd[i - 1];
      }
    }
  }

  lemma SlashPairSplit(a: string, b: string)
    requires ' ' !in a
    ensures var r := a + " / " + b;
      && FindChar(r, ' ') == Some(|a|)
      && r[|a|..|a| + 3] == " / " && r[..|a|] == a && r[|a| + 3..] == b
  {
    var r := a + " / " + b;
    assert r == a + (" / " + b);
    FindCharAfter(a, " / " + b, ' ');
  }

  /** convertTwoNumbersToStringWithSlash: both numbers, each grouped, around " / ". */
  method ConvertTwoNumbersToStringWithSlash(num1: int, num2: int) returns (r: string)
    ensures ParseSlashPair(r) == Some((num1, num2))
    ensures r == GroupedNumber(num1) + " / " + GroupedNumber(num2)
  {
    var a := ConvertNumToString(num1);
    var b := ConvertNumToString(num2);
    r := a + " / " + b;
    NoSpaceInGroupedNumber(num1);
    GroupedNumberRoundTrip(num1);
    GroupedNumberRoundTrip(num2);
    SlashPairSplit(a, b);
  }
}

=== FILE: highscore.dfy ===
/** GTLib.HighscoreList and the list-checking part of GTLib.HighscoreScreen. */
module Highscore {
  import opened Wrappers

  /** One row of a list: its rank (1 for the first row), the player's name and score. */
  datatype Entry = Entry(rank: int, playerName: string, score: int)

  /** An item of a list received from the server; missing or falsy items are `None`. */
  datatype Item = Item(name: string, score: int)

  /** The blank row of rank i+1. */
  function Blank(i: nat): Entry {
    Entry(i + 1, "", 0)
  }

  /** The constructor's entries: `numEntries` blank rows (10 when zero is
      given, none when a negative count is given), ranked 1, 2, ... */
  method NewList(numEntries: int) returns (entries: seq<Entry>)
    ensures numEntries == 0 ==> |entries| == 10
    ensures numEntries > 0 ==> |entries| == numEntries
    ensures numEntries < 0 ==> entries == []
    ensures forall i :: 0 <= i < |entries| ==> entries[i] == Blank(i)
  {
    var n := if numEntries == 0 then 10 else numEntries;
    entries := [];
    var i := 0;
    while i < n
      invariant 0 <= i && (n >= 0 ==> i <= n) && (n < 0 ==> i == 0)
      invariant |entries| == i
      invariant forall k :: 0 <= k < i ==> entries[k] == Blank(k)
    {
      entries := entries + [Blank(i)];
      i := i + 1;
    }
  }

  /** isHighscore: whether the score beats the last row's score. Looking at
      the last row of an empty list fails. */
  function IsHighscore(entries: seq<Entry>, score: int): (r: Result<bool>)
    ensures r.Failure? <==> |entries| == 0
    ensures r.Success? ==> (r.value <==> score > entries[|entries| - 1].score)
  {
    if |entries| == 0 then Failure("cannot read the last entry of an empty list")
    else Success(score > entries[|entries| - 1].score)
  }

  /** Scores in the list never increase from one row to the next. */
  predicate Ranked(entries: seq<Entry>) {
    forall i, j :: 0 <= i < j < |entries| ==> entries[i].score >= entries[j].score
  }

  /** On a ranked list, "beats the last row" means "the score would make it
      into the list": it beats some row, and so it beats every row after
      the first one it beats. */
  lemma IsHighscoreMeansMakesTheList(entries: seq<Entry>, score: int)
    requires Ranked(entries) && |entries| > 0
    ensures IsHighscore(entries, score).value <==> exists i :: 0 <= i < |entries| && score > entries[i].score
  {
    if exists i :: 0 <= i < |entries| && score > entries[i].score {
      var i :| 0 <= i < |entries| && score > entries[i].score;
      assert entries[i].score >= entries[|entries| - 1].score;
    }
  }

  /** setEntry: overwrites name and score of the row at `index`; an index out
      of range changes nothing. */
  function SetEntry(entries: seq<Entry>, index: int, name: string, score: int): (r: seq<Entry>)
    ensures |r| == |entries|
    ensures !(0 <= index < |entries|) ==> r == entries
    ensures forall k :: 0 <= k < |r| ==>
      r[k] == (if k == index then entries[k].(playerName := name, score := score) else entries[k])
  {
    if 0 <= index < |entries| then entries[index := entries[index].(playerName := name, score := score)]
    else entries
  }

  /** What row i holds after parsing `list`: the item's name and score if
      there is one, blank otherwise. */
  function Parsed(entry: Entry, i: nat, list: seq<Option<Item>>): Entry {
    if i < |list| && list[i].Some? then entry.(playerName := list[i].value.name, score := list[i].value.score)
    else entry.(playerName := "", score := 0)
  }

  /** parse: sets every row from the received list, blanking the rows the
      list does not fill; ranks stay and extra items are ignored. */
  method Parse(entries: seq<Entry>, list: seq<Option<Item>>) returns (r: seq<Entry>)
    ensures |r| == |entries|
    ensures forall i :: 0 <= i < |r| ==> r[i].rank == entries[i].rank
    ensures forall i :: 0 <= i < |r| && i < |list| && list[i].Some? ==>
      r[i].playerName == list[i].value.name && r[i].score == list[i].value.score
    ensures forall i :: 0 <= i < |r| && (i >= |list| || list[i].None?) ==>
      r[i].playerName == "" && r[i].score == 0
  {
    var n := |entries|;
    r := entries;
    for i := 0 to n
      invariant |r| == n
      invariant forall k :: 0 <= k < i ==> r[k] == Parsed(entries[k], k, list)
      invariant forall k :: i <= k < n ==> r[k] == entries[k]
    {
      var item := if i < |list| then list[i] else None;
      if item.Some? {
        r := SetEntry(r, i, item.value.name, item.value.score);
      } else {
        r := SetEntry(r, i, "", 0);
      }
    }
  }

  /** Parsing the same list twice gives what parsing it once gave: the
      result does not depend on the names and scores shown before. */
  method ParseTwice(entries: seq<Entry>, list: seq<Option<Item>>) returns (once: seq<Entry>, twice: seq<Entry>)
    ensures once == twice
  {
    once := Parse(entries, list);
    twice := Parse(once, list);
  }

  /** HighscoreScreen.isHighscore: whether the score makes the overall list
      or, failing that, the daily list. */
  function ScreenIsHighscore(overall: seq<Entry>, daily: seq<Entry>, score: int): (r: Result<bool>)
    ensures r.Failure? <==> |overall| == 0 || (|daily| == 0 && score <= overall[|overall| - 1].score)
    ensures |overall| > 0 && |daily| > 0 ==>
      (r.Success? && (r.value <==> score > overall[|overall| - 1].score || score > daily[|daily| - 1].score))
    ensures |overall| > 0 && score > overall[|overall| - 1].score ==> r == Success(true)
  {
    var inOverall :- IsHighscore(overall, score);
    if !inOverall then IsHighscore(daily, score) else Success(true)
  }

  /** On ranked lists, the screen's answer is whether the score would make it
      into the overall list or into the daily one. */
  lemma ScreenIsHighscoreMeansMakesAList(overall: seq<Entry>, daily: seq<Entry>, score: int)
    requires Ranked(overall) && Ranked(daily) && |overall| > 0 && |daily| > 0
    ensures ScreenIsHighscore(overall, daily, score).value <==>
      (exists i :: 0 <= i < |overall| && score > overall[i].score) ||
      (exists i :: 0 <= i < |daily| && score > daily[i].score)
  {
    IsHighscoreMeansMakesTheList(overall, score);
    IsHighscoreMeansMakesTheList(daily, score);
  }
}

=== FILE: json.dfy ===
/** The JavaScript values the translation pack and the configuration are
    made of, with the property access rules the code relies on. */
module Json {
  import opened Decimal

  /** A parsed JSON value. Numbers are integers; object key order is not kept. */
  datatype Json =
    | JNull
    | JBool(b: bool)
    | JNum(n: int)
    | JStr(s: string)
    | JArr(items: seq<Json>)
    | JObj(fields: map<string, Json>)

  /** The falsy values: null, false, 0 and the empty string. Arrays and
      objects are truthy even when empty. */
  predicate Falsy(v: Json) {
    v == JNull || v == JBool(false) || v == JNum(0) || v == JStr("")
  }

  lemma NatToStringOneToOne()
    ensures forall m: nat, n: nat :: NatToString(m) == NatToString(n) ==> m == n
  {
    forall m: nat, n: nat | NatToString(m) == NatToString(n) {
      NatToStringInjective(m, n);
    }
  }

  /** The index properties of a string: "0", "1", ... to its characters. */
  function StringIndexes(s: string): map<string, Json> {
    NatToStringOneToOne();
    map i | 0 <= i < |s| :: NatToString(i) := JStr([s[i]])
  }

  /** The index properties of an array: "0", "1", ... to its items. */
  function ArrayIndexes(a: seq<Json>): map<string, Json> {
    NatToStringOneToOne();
    map i | 0 <= i < |a| :: NatToString(i) := a[i]
  }

  /** The own properties of a value, as `hasOwnProperty` sees them: an
      object's fields; a string's or an array's indexes and its "length";
      nothing for null, booleans and numbers. */
  function OwnProperties(v: Json): map<string, Json> {
    match v
    case JObj(fields) => fields
    case JStr(s) => StringIndexes(s)["length" := JNum(|s|)]
    case JArr(a) => ArrayIndexes(a)["length" := JNum(|a|)]
    case _ => map[]
  }

  /** The properties a for-in loop visits: the own properties without "length". */
  function Enumerable(v: Json): map<string, Json> {
    match v
    case JObj(fields) => fields
    case JStr(s) => StringIndexes(s)
    case JArr(a) => ArrayIndexes(a)
    case _ => map[]
  }

  predicate HasOwn(v: Json, key: string) {
    key in OwnProperties(v)
  }

  function Get(v: Json, key: string): Json
    requires HasOwn(v, key)
  {
    OwnProperties(v)[key]
  }

  /** A key names an index of a string or array exactly when it is the
      canonical decimal spelling of a position inside it. */
  lemma IndexKeys(v: Json, key: string)
    requires v.JStr? || v.JArr?
    ensures key in Enumerable(v) <==>
      IsCanonical(key) && ParseDigits(key) < (if v.JStr? then |v.s| else |v.items|)
  {
    var n := if v.JStr? then |v.s| else |v.items|;
    if key in Enumerable(v) {
      var i :| 0 <= i < n && NatToString(i) == key;
      ParseNatToString(i);
      NatToStringCanonical(i);
    }
    if IsCanonical(key) && ParseDigits(key) < n {
      CanonicalRoundTrip(key);
      assert NatToString(ParseDigits(key)) == key;
    }
  }

  /** "length" is never an index key, so for-in never visits it. */
  lemma LengthNotEnumerable(v: Json)
    requires v.JStr? || v.JArr?
    ensures "length" !in Enumerable(v) && "length" in OwnProperties(v)
  {
    IndexKeys(v, "length");
    assert !IsDigit("length"[0]);
  }
}

=== FILE: keyboard.dfy ===
/** GTLib.Keyboard's text buffer: the on-screen keyboard turns key values into
    an edited line of text, with an optional length limit, no leading or double
    spaces, backspace, enter and cancel. */
module Keyboard {
  import opened Wrappers

  /** The keyboard's editing state. `enterKey` and `backspaceKey` hold the
      enabled flag of the special keys the layout has (None when the layout
      has no such key); `output` is the text of the attached label, if any.
      A `maxlength` of zero means the buffer is unbounded. */
  datatype Keyboard = Keyboard(
    buffer: string,
    maxlength: int,
    enterKey: Option<bool>,
    backspaceKey: Option<bool>,
    output: Option<string>)

  /** What a key press announces: the edited text, the affirmed text, or a cancel. */
  datatype Signal = Changed(text: string) | Affirmed(text: string) | Cancelled

  //--------------------------------------------------------------------------
  // Key states
  //--------------------------------------------------------------------------

  /** updateKeyStates as the source writes it: the backspace key copies the
      enter key's flag, so a layout with a backspace key but no enter key
      fails on the missing enter key. */
  function UpdateKeyStatesAsWritten(kb: Keyboard): (r: Result<Keyboard>)
    ensures r.Failure? <==> kb.backspaceKey.Some? && kb.enterKey.None?
    ensures r.Success? ==> KeysReflectBuffer(r.value) && r.value.buffer == kb.buffer && r.value.output == kb.output
  {
    var enter := if kb.enterKey.Some? then Some(|kb.buffer| > 0) else None;
    if kb.backspaceKey.Some? then
      if enter.None? then Failure("enter key is missing")
      else Success(kb.(enterKey := enter, backspaceKey := enter))
    else Success(kb.(enterKey := enter))
  }

  /** updateKeyStates as intended: every special key the layout has is
      enabled exactly when there is text to affirm or delete. */
  function UpdateKeyStates(kb: Keyboard): (r: Keyboard)
    ensures r.buffer == kb.buffer && r.maxlength == kb.maxlength && r.output == kb.output
    ensures r.enterKey.Some? == kb.enterKey.Some? && r.backspaceKey.Some? == kb.backspaceKey.Some?
    ensures KeysReflectBuffer(r)
  {
    kb.(enterKey := if kb.enterKey.Some? then Some(|kb.buffer| > 0) else None,
        backspaceKey := if kb.backspaceKey.Some? then Some(|kb.buffer| > 0) else None)
  }

  /** Each special key present is enabled exactly when the buffer is non-empty. */
  predicate KeysReflectBuffer(kb: Keyboard) {
    && (kb.enterKey.Some? ==> kb.enterKey.value == (|kb.buffer| > 0))
    && (kb.backspaceKey.Some? ==> kb.backspaceKey.value == (|kb.buffer| > 0))
  }

  /** With both special keys, or with no backspace key, the source's update is
      the intended one. */
  lemma UpdateKeyStatesAgree(kb: Keyboard)
    requires kb.enterKey.Some? || kb.backspaceKey.None?
    ensures UpdateKeyStatesAsWritten(kb) == Success(UpdateKeyStates(kb))
  {
  }

  /** A layout with a backspace key but no enter key makes the source's update
      fail, where the intended update simply enables backspace for a non-empty
      buffer. */
  lemma UpdateKeyStatesMissingEnter()
    ensures var kb := Keyboard("a", 0, None, Some(false), None);
      && UpdateKeyStatesAsWritten(kb).Failure?
      && UpdateKeyStates(kb).backspaceKey == Some(true)
  {
  }

  //--------------------------------------------------------------------------
  // Buffer operations
  //--------------------------------------------------------------------------

  /** updateOutput: an attached label shows the buffer. */
  function UpdateOutput(kb: Keyboard): (r: Keyboard)
    ensures r.output.Some? == kb.output.Some?
    ensures r.output.Some? ==> r.output.value == kb.buffer
    ensures r.(output := kb.output) == kb
  {
    if kb.output.Some? then kb.(output := Some(kb.buffer)) else kb
  }

  /** clearBuffer: empties the buffer and refreshes keys and label. */
  function ClearBuffer(kb: Keyboard): (r: Keyboard)
    ensures r.buffer == "" && r.maxlength == kb.maxlength
    ensures KeysReflectBuffer(r)
    ensures r.output.Some? == kb.output.Some?
    ensures r.output.Some? ==> r.output.value == ""
  {
    UpdateOutput(UpdateKeyStates(kb.(buffer := "")))
  }

  /** Whether the buffer still has room: a zero limit means no limit. */
  predicate HasRoom(kb: Keyboard) {
    kb.maxlength == 0 || |kb.buffer| < kb.maxlength
  }

  /** addToBuffer: appends `text` while there is room, otherwise changes nothing. */
  function AddToBuffer(kb: Keyboard, text: string): (r: Keyboard)
    ensures HasRoom(kb) ==> r.buffer == kb.buffer + text
    ensures !HasRoom(kb) ==> r == kb
    ensures r.maxlength == kb.maxlength
    ensures kb.maxlength > 0 && |kb.buffer| <= kb.maxlength && |text| <= 1 ==> |r.buffer| <= kb.maxlength
  {
    if HasRoom(kb) then kb.(buffer := kb.buffer + text) else kb
  }

  /** onKeyDown: applies one key value and returns the new state and the signal
      dispatched. "space" adds a space only after a non-space character,
      "backspace" deletes the last character, "enter" affirms the text and
      clears it, "cancel" clears it; any other value is appended as text. */
  function OnKeyDown(kb: Keyboard, value: string): (r: (Keyboard, Signal))
    ensures r.0.maxlength == kb.maxlength && KeysReflectBuffer(r.0)
    ensures r.0.output.Some? == kb.output.Some?
    ensures r.0.output.Some? ==> r.0.output.value == r.0.buffer
    ensures value == "enter" <==> r.1.Affirmed?
    ensures value == "cancel" <==> r.1 == Cancelled
    ensures r.1.Affirmed? ==> r.1.text == kb.buffer && r.0.buffer == ""
    ensures r.1.Changed? ==> r.1.text == r.0.buffer
  {
    if value == "enter" then
      (ClearBuffer(kb), Affirmed(kb.buffer))
    else if value == "cancel" then
      (ClearBuffer(kb), Cancelled)
    else
      var edited :=
        if value == "space" then
          var n := |kb.buffer|;
          if n > 0 && kb.buffer[n - 1] != ' ' then AddToBuffer(kb, " ") else kb
        else if value == "backspace" then
          if |kb.buffer| > 0 then kb.(buffer := kb.buffer[..|kb.buffer| - 1]) else kb
        else AddToBuffer(kb, value);
      var shown := UpdateOutput(UpdateKeyStates(edited));
      (shown, Changed(shown.buffer))
  }

  //--------------------------------------------------------------------------
  // Properties
  //--------------------------------------------------------------------------

  /** A well-spaced text never starts with a space and never holds two
      adjacent spaces. */
  predicate WellSpaced(s: string) {
    && (|s| > 0 ==> s[0] != ' ')
    && forall i :: 0 < i < |s| ==> !(s[i - 1] == ' ' && s[i] == ' ')
  }

  /** A character JavaScript stores in one UTF-16 code unit, so that it adds
      one to the source's `length`, as it does to `|s|` here. */
  predicate InBasicPlane(c: char) {
    (c as int) < 0x1_0000
  }

  /** The key values the properties below assume a layout sends: the four
      special keys, or text without spaces of at most one character from the
      Basic Multilingual Plane (a letter key). The keyboard itself accepts any
      value and appends one it does not recognise whole. */
  predicate IsKeyValue(value: string) {
    || value in {"space", "backspace", "enter", "cancel"}
    || (|value| <= 1 && forall c :: c in value ==> c != ' ' && InBasicPlane(c))
  }

  /** The state the keyboard keeps between key presses. */
  predicate Valid(kb: Keyboard) {
    && WellSpaced(kb.buffer)
    && (kb.maxlength > 0 ==> |kb.buffer| <= kb.maxlength)
    && KeysReflectBuffer(kb)
  }

  /** What each special key does to the text, and that typing keeps a valid
      keyboard valid: the length limit holds and no leading or double space
      ever enters the buffer. */
  lemma OnKeyDownSpec(kb: Keyboard, value: string)
    requires Valid(kb) && IsKeyValue(value)
    ensures var (r, signal) := OnKeyDown(kb, value);
      && Valid(r)
      && r.maxlength == kb.maxlength
      && (value == "enter" ==> signal == Affirmed(kb.buffer) && r.buffer == "")
      && (value == "cancel" ==> signal == Cancelled && r.buffer == "")
      && (value == "backspace" ==>
            r.buffer == (if |kb.buffer| > 0 then kb.buffer[..|kb.buffer| - 1] else kb.buffer))
      && (value == "space" ==>
            r.buffer == (if |kb.buffer| > 0 && kb.buffer[|kb.buffer| - 1] != ' ' && HasRoom(kb)
                         then kb.buffer + " " else kb.buffer))
      && (value !in {"enter", "cancel"} ==> signal == Changed(r.buffer))
  {
    if value == "backspace" {
      BackspaceKeepsValid(kb);
    } else if value == "space" {
      SpaceKeepsValid(kb);
    } else if value !in {"enter", "cancel"} {
      LetterKeepsValid(kb, value);
    }
  }

  lemma BackspaceKeepsValid(kb: Keyboard)
    requires Valid(kb)
    ensures Valid(OnKeyDown(kb, "backspace").0)
  {
    if |kb.buffer| > 0 {
      var t := kb.buffer[..|kb.buffer| - 1];
      assert forall i :: 0 <= i < |t| ==> t[i] == kb.buffer[i];
      assert WellSpaced(t);
    }
  }

  lemma SpaceKeepsValid(kb: Keyboard)
    requires Valid(kb)
    ensures Valid(OnKeyDown(kb, "space").0)
  {
    var n := |kb.buffer|;
    if n > 0 && kb.buffer[n - 1] != ' ' && HasRoom(kb) {
      var t := kb.buffer + " ";
      assert forall i :: 0 <= i < n ==> t[i] == kb.buffer[i];
      assert WellSpaced(t);
    }
  }

  lemma LetterKeepsValid(kb: Keyboard, value: string)
    requires Valid(kb) && value !in {"space", "backspace", "enter", "cancel"}
    requires IsKeyValue(value)
    ensures Valid(OnKeyDown(kb, value).0)
  {
    if HasRoom(kb) && |value| == 1 {
      var t := kb.buffer + value;
      var n := |kb.buffer|;
      assert value[0] in value && t[n] == value[0] != ' ';
      assert forall i :: 0 <= i < n ==> t[i] == kb.buffer[i];
      assert WellSpaced(t);
    } else if HasRoom(kb) {
      assert kb.buffer + value == kb.buffer;
    }
  }


  /** The state after a series of key presses. */
  function Type(kb: Keyboard, values: seq<string>): Keyboard
    decreases |values|
  {
    if |values| == 0 then kb else Type(OnKeyDown(kb, values[0]).0, values[1..])
  }

  /** Any series of key presses from a valid keyboard leaves it valid. */
  lemma {:induction false} TypeKeepsValid(kb: Keyboard, values: seq<string>)
    requires Valid(kb)
    requires forall i :: 0 <= i < |values| ==> IsKeyValue(values[i])
    ensures Valid(Type(kb, values)) && Type(kb, values).maxlength == kb.maxlength
    decreases |values|
  {
    if |values| > 0 {
      OnKeyDownSpec(kb, values[0]);
      TypeKeepsValid(OnKeyDown(kb, values[0]).0, values[1..]);
    }
  }

  /** Typing single characters into an unbounded keyboard appends them in order. */
  lemma {:induction false} TypeLetters(kb: Keyboard, word: string)
    requires kb.maxlength == 0
    requires forall i :: 0 <= i < |word| ==> word[i] != ' '
    ensures var letters := seq(|word|, i requires 0 <= i < |word| => [word[i]]);
      Type(kb, letters).buffer == kb.buffer + word
    decreases |word|
  {
    var letters := seq(|word|, i requires 0 <= i < |word| => [word[i]]);
    if |word| > 0 {
      var c := [word[0]];
      assert c !in {"space", "backspace", "enter", "cancel"};
      var next := OnKeyDown(kb, c).0;
      assert next.buffer == kb.buffer + c;
      var rest := seq(|word[1..]|, i requires 0 <= i < |word[1..]| => [word[1..][i]]);
      assert letters[1..] == rest;
      TypeLetters(next, word[1..]);
      assert kb.buffer + c + word[1..] == kb.buffer + word;
    } else {
      assert letters == [];
    }
  }

  /** Typing a word and pressing enter affirms exactly that word and leaves an
      empty buffer behind. */
  lemma TypeWordThenEnter(kb: Keyboard, word: string)
    requires kb.maxlength == 0 && kb.buffer == ""
    requires forall i :: 0 <= i < |word| ==> word[i] != ' '
    ensures var typed := Type(kb, seq(|word|, i requires 0 <= i < |word| => [word[i]]));
      OnKeyDown(typed, "enter").1 == Affirmed(word) && OnKeyDown(typed, "enter").0.buffer == ""
  {
    TypeLetters(kb, word);
  }
}

=== FILE: langutil.dfy ===
/** GTLib.LangUtil: the language setting and the lookup of dash-separated
    translation tokens in a translation pack. */
module LangUtil {
  import opened Wrappers
  import opened Decimal
  import opened Json

  /** The module's state: the valid languages, the chosen language, the
      content handed over and the translation cached from it (null until the
      first lookup). */
  datatype LangState = LangState(
    languages: seq<string>,
    lang: Option<string>,
    translationContent: Json,
    translation: Json)

  const German := "de"

  /** The state when the script is loaded: German, English, French and
      Italian are valid; nothing else is set. */
  const Initial: LangState := LangState(["de", "en", "fr", "it"], None, JNull, JNull)

  /** validateLanguage: whether the language is one of the valid ones. */
  predicate ValidateLanguage(st: LangState, language: string)
    ensures ValidateLanguage(st, language) <==> IndexOf(st.languages, language) > -1
  {
    language in st.languages
  }

  /** Position of the first occurrence of x in s, or -1 (Array#indexOf). */
  function IndexOf(s: seq<string>, x: string): (i: int)
    ensures -1 <= i < |s|
    ensures i >= 0 ==> s[i] == x && forall k :: 0 <= k < i ==> s[k] != x
    ensures i == -1 <==> x !in s
  {
    if |s| == 0 then -1
    else if s[0] == x then 0
    else var k := IndexOf(s[1..], x); if k == -1 then -1 else k + 1
  }

  /** validateLanguage, written through indexOf, holds exactly for the
      languages in the valid-language list. */
  lemma ValidateByIndexOf(st: LangState, language: string)
    ensures ValidateLanguage(st, language) <==> language in st.languages
  {
  }

  /** setLanguage: an invalid language falls back to German, whether or not
      German is among the valid languages. */
  function SetLanguage(st: LangState, language: string): (r: LangState)
    ensures r.lang == Some(if language in st.languages then language else German)
    ensures r.languages == st.languages && r.translationContent == st.translationContent
    ensures r.translation == st.translation
  {
    st.(lang := Some(if ValidateLanguage(st, language) then language else German))
  }

  /** The language set is valid afterwards unless German was needed and is
      not valid itself. */
  lemma SetLanguageValid(st: LangState, language: string)
    ensures ValidateLanguage(st, SetLanguage(st, language).lang.value) <==>
      ValidateLanguage(st, language) || ValidateLanguage(st, German)
  {
  }

  /** setValidLanguages: replaces the list of valid languages. */
  function SetValidLanguages(st: LangState, languages: seq<string>): (r: LangState)
    ensures forall l :: ValidateLanguage(r, l) <==> l in languages
    ensures r.lang == st.lang && r.translationContent == st.translationContent
    ensures r.translation == st.translation
  {
    st.(languages := languages)
  }

  /** setTranslationContent: falsy content is refused; anything else is stored. */
  function SetTranslationContent(st: LangState, content: Json): (r: Result<LangState>)
    ensures r.Failure? <==> Falsy(content)
    ensures r.Success? ==> r.value == st.(translationContent := content)
  {
    if Falsy(content) then Failure("invalid translation content")
    else Success(st.(translationContent := content))
  }

  /** Position of the last occurrence of c in s, or -1. */
  function LastIndexOf(s: string, c: char): (i: int)
    ensures -1 <= i < |s|
    ensures i >= 0 ==> s[i] == c && c !in s[i + 1..]
    ensures i == -1 <==> c !in s
    decreases |s|
  {
    if |s| == 0 then -1
    else if s[|s| - 1] == c then |s| - 1
    else
      var i := LastIndexOf(s[..|s| - 1], c);
      assert s[..|s| - 1] + [s[|s| - 1]] == s;
      i
  }

  /** String#split with a one-character separator: the pieces between
      separators, empty pieces included; the empty string gives [""]. */
  function Split(s: string, c: char): (parts: seq<string>)
    ensures |parts| >= 1
    decreases |s|
  {
    var i := LastIndexOf(s, c);
    if i == -1 then [s] else Split(s[..i], c) + [s[i + 1..]]
  }

  /** Splitting then joining with the same separator gives the token back,
      no piece holds a separator, and there is one piece more than separators. */
  lemma {:induction false} SplitJoin(s: string, c: char)
    ensures Join(Split(s, c), [c]) == s
    ensures forall k :: 0 <= k < |Split(s, c)| ==> c !in Split(s, c)[k]
    ensures |Split(s, c)| == Occurrences(s, c) + 1
    decreases |s|
  {
    var i := LastIndexOf(s, c);
    if i == -1 {
      NoOccurrences(s, c);
    } else {
      var init := Split(s[..i], c);
      SplitJoin(s[..i], c);
      var parts := init + [s[i + 1..]];
      assert parts[..|parts| - 1] == init;
      assert s == s[..i] + [c] + s[i + 1..];
      OccurrencesAppend(s[..i] + [c], s[i + 1..], c);
      OccurrencesAppend(s[..i], [c], c);
      assert Occurrences([c], c) == Occurrences([], c) + 1;
      NoOccurrences(s[i + 1..], c);
    }
  }

  lemma {:induction false} NoOccurrences(s: string, c: char)
    requires c !in s
    ensures Occurrences(s, c) == 0
    decreases |s|
  {
    if |s| > 0 {
      assert s[..|s| - 1] + [s[|s| - 1]] == s;
      NoOccurrences(s[..|s| - 1], c);
    }
  }

  /** Following the sub-keys one by one from the left, as the lookup does:
      the value reached, "TNF_" and the first sub-key that is not an own
      property, or a failure when a step lands on null. A failing walk names
      a path that does not resolve. */
  function Walk(obj: Json, keys: seq<string>): (r: Result<Json>)
    ensures r.Failure? ==> |keys| > 0 && Resolve(obj, keys).None?
    decreases |keys|
  {
    if |keys| == 0 then Success(obj)
    else if obj.JNull? then
      ResolveNone(obj, keys);
      Failure("cannot read properties of null")
    else if !HasOwn(obj, keys[0]) then Success(JStr("TNF_" + keys[0]))
    else
      ResolveCons(obj, keys);
      Walk(Get(obj, keys[0]), keys[1..])
  }

  /** The nested value a key path names, defined from its last key: present
      only when every key along the path is an own property. */
  function Resolve(obj: Json, keys: seq<string>): Option<Json>
    decreases |keys|
  {
    if |keys| == 0 then Some(obj)
    else match Resolve(obj, keys[..|keys| - 1])
      case Some(o) => if HasOwn(o, keys[|keys| - 1]) then Some(Get(o, keys[|keys| - 1])) else None
      case None => None
  }

  /** Resolving a path one key further from a resolved prefix. */
  lemma {:induction false} ResolveCons(obj: Json, keys: seq<string>)
    requires |keys| > 0 && HasOwn(obj, keys[0])
    ensures Resolve(obj, keys) == Resolve(Get(obj, keys[0]), keys[1..])
    decreases |keys|
  {
    if |keys| > 1 {
      var init := keys[..|keys| - 1];
      ResolveCons(obj, init);
      assert init[1..] == keys[1..][..|keys[1..]| - 1];
    } else {
      assert keys[..0] == [];
    }
  }

  lemma {:induction false} ResolveNone(obj: Json, keys: seq<string>)
    requires |keys| > 0 && !HasOwn(obj, keys[0])
    ensures Resolve(obj, keys) == None
    decreases |keys|
  {
    if |keys| > 1 {
      ResolveNone(obj, keys[..|keys| - 1]);
    } else {
      assert keys[..0] == [];
    }
  }

  /** When every sub-key exists the walk returns the nested value they name. */
  lemma {:induction false} WalkFindsResolved(obj: Json, keys: seq<string>)
    requires Resolve(obj, keys).Some?
    ensures Walk(obj, keys) == Success(Resolve(obj, keys).value)
    decreases |keys|
  {
    if |keys| > 0 {
      if HasOwn(obj, keys[0]) {
        ResolveCons(obj, keys);
        WalkFindsResolved(Get(obj, keys[0]), keys[1..]);
      } else {
        ResolveNone(obj, keys);
      }
    }
  }

  /** When the first i sub-keys lead to a non-null value lacking sub-key i,
      the walk stops there with "TNF_" and that sub-key. */
  lemma {:induction false} WalkStopsAtMissing(obj: Json, keys: seq<string>, i: nat)
    requires i < |keys|
    requires Resolve(obj, keys[..i]).Some?
    requires var o := Resolve(obj, keys[..i]).value; !o.JNull? && !HasOwn(o, keys[i])
    ensures Walk(obj, keys) == Success(JStr("TNF_" + keys[i]))
    decreases i
  {
    if i > 0 {
      if HasOwn(obj, keys[0]) {
        ResolveCons(obj, keys[..i]);
        assert keys[..i][1..] == keys[1..][..i - 1];
        WalkStopsAtMissing(Get(obj, keys[0]), keys[1..], i - 1);
      } else {
        ResolveNone(obj, keys[..i]);
      }
    } else {
      assert keys[..0] == [];
    }
  }

  /** The lookup loop: follows sub-keys until one is missing, then leaves the
      "TNF_" marker and breaks. */
  method WalkTokens(translation: Json, arr: seq<string>) returns (r: Result<Json>)
    ensures r == Walk(translation, arr)
  {
    var n := |arr|;
    var obj := translation;
    var i := 0;
    while i < n
      invariant 0 <= i <= n
      invariant Walk(translation, arr) == Walk(obj, arr[i..])
      decreases n - i
    {
      if obj.JNull? {
        return Failure("cannot read properties of null");
      }
      if !HasOwn(obj, arr[i]) {
        obj := JStr("TNF_" + arr[i]);
        break;
      } else {
        assert arr[i..][1..] == arr[i + 1..];
        obj := Get(obj, arr[i]);
      }
      i := i + 1;
    }
    if i == n {
      assert arr[n..] == [];
    }
    return Success(obj);
  }

  /** The translation the lookup uses: the cached one, or else the content,
      which then becomes the cache; failing when neither is set. */
  function Translation(st: LangState): (r: Result<LangState>)
    ensures r.Failure? <==> Falsy(st.translation) && Falsy(st.translationContent)
    ensures r.Success? ==> !Falsy(r.value.translation)
    ensures r.Success? && !Falsy(st.translation) ==> r.value == st
    ensures r.Success? && Falsy(st.translation) ==> r.value == st.(translation := st.translationContent)
  {
    if !Falsy(st.translation) then Success(st)
    else if Falsy(st.translationContent) then Failure("invalid translation content")
    else Success(st.(translation := st.translationContent))
  }

  /** getTranslation: the value named by the token's dash-separated sub-keys
      in the translation, with the state after the call. The cache is filled
      before the walk starts, so it stays filled even when the walk fails on
      a null value. */
  method GetTranslation(st: LangState, token: string) returns (st': LangState, r: Result<Json>)
    ensures Falsy(st.translation) && Falsy(st.translationContent) ==> st' == st && r.Failure?
    ensures Translation(st).Success? ==> st' == Translation(st).value && !Falsy(st'.translation)
    ensures Translation(st).Success? ==> r == Walk(st'.translation, Split(token, '-'))
  {
    var cached := Translation(st);
    if cached.Failure? {
      return st, Failure(cached.error);
    }
    st' := cached.value;
    var arr := Split(token, '-');
    r := WalkTokens(st'.translation, arr);
  }

  /** A lookup that runs into null still leaves the content cached: with
      content {"a": null} and token "a-b" the walk fails at "b", yet the
      translation the next lookup uses is that content. */
  lemma NullOnPathStillCaches()
    ensures var st := Initial.(translationContent := JObj(map["a" := JNull]));
      && Translation(st).Success?
      && Translation(st).value.translation == JObj(map["a" := JNull])
      && Walk(Translation(st).value.translation, Split("a-b", '-')).Failure?
  {
    var content := JObj(map["a" := JNull]);
    assert LastIndexOf("a-b", '-') == 1 by {
      assert "a-b"[2] != '-';
      assert "a-b"[..2] == "a-";
    }
    assert LastIndexOf("a", '-') == -1 by {
      assert "a"[..0] == "";
    }
    assert "a-b"[..1] == "a" && "a-b"[2..] == "b";
    assert Split("a-b", '-') == ["a", "b"];
    assert HasOwn(content, "a");
  }

  /** Once a lookup has cached the translation, handing over new content no
      longer changes what tokens translate to. */
  lemma CachedTranslationWins(st: LangState, content: Json, token: string)
    requires Translation(st).Success?
    requires SetTranslationContent(Translation(st).value, content).Success?
    ensures var after := SetTranslationContent(Translation(st).value, content).value;
      Translation(after).Success? &&
      Translation(after).value.translation == Translation(st).value.translation
  {
  }

  /** A token whose sub-keys all exist in a cached translation translates to
      the nested value they name. */
  lemma TokenFound(st: LangState, token: string)
    requires !Falsy(st.translation)
    requires Resolve(st.translation, Split(token, '-')).Some?
    ensures Walk(Translation(st).value.translation, Split(token, '-')) ==
      Success(Resolve(st.translation, Split(token, '-')).value)
  {
    WalkFindsResolved(st.translation, Split(token, '-'));
  }
}

=== FILE: lifecounter.dfy ===
/** GTLib.LifeCounter: a row of life icons of which the last `lives` are shown
    filled. */
module LifeCounter {

  /** `counters[i]` tells whether icon i shows the filled frame. */
  datatype LifeCounter = LifeCounter(counters: seq<bool>, lives: int)

  /** The number of filled icons. */
  function CountFilled(counters: seq<bool>): nat
    decreases |counters|
  {
    if |counters| == 0 then 0
    else CountFilled(counters[..|counters| - 1]) + (if counters[|counters| - 1] then 1 else 0)
  }

  /** The amount clamped to the number of icons and to zero. */
  function ClampLives(amount: int, n: nat): (a: nat)
    ensures a <= n
    ensures 0 <= amount <= n ==> a == amount
    ensures amount < 0 ==> a == 0
    ensures amount > n ==> a == n
  {
    var a := if amount > n then n else amount;
    if a < 0 then 0 else a
  }

  /** The icon row showing `lives` filled icons at its end. */
  function FilledFromEnd(n: nat, lives: nat): seq<bool>
    requires lives <= n
  {
    seq(n, i requires 0 <= i < n => i >= n - lives)
  }

  /** setLives: stores the clamped amount, refills the last `amount` icons and
      depletes the others; nothing happens when the clamped amount is the
      current one. The flag says whether "lives depleted" was dispatched. */
  function SetLives(lc: LifeCounter, amount: int, triggerSignal: bool): (r: (LifeCounter, bool))
    ensures |r.0.counters| == |lc.counters|
    ensures r.0.lives == ClampLives(amount, |lc.counters|)
    ensures lc.lives == ClampLives(amount, |lc.counters|) ==> r.0 == lc && !r.1
    ensures r.1 <==> lc.lives != 0 && ClampLives(amount, |lc.counters|) == 0 && triggerSignal
  {
    var n := |lc.counters|;
    var a := ClampLives(amount, n);
    if lc.lives != a then
      (LifeCounter(FilledFromEnd(n, a), a), a == 0 && triggerSignal)
    else (lc, false)
  }

  lemma {:induction false} FilledFromEndCount(n: nat, lives: nat)
    requires lives <= n
    ensures CountFilled(FilledFromEnd(n, lives)) == lives
    decreases n
  {
    if n > 0 {
      var row := FilledFromEnd(n, lives);
      if lives > 0 {
        FilledFromEndCount(n - 1, lives - 1);
        assert row[..n - 1] == FilledFromEnd(n - 1, lives - 1);
      } else {
        FilledFromEndCount(n - 1, 0);
        assert row[..n - 1] == FilledFromEnd(n - 1, 0);
      }
    }
  }

  /** After a change, exactly `lives` icons are filled, and they are the last ones. */
  lemma SetLivesShowsLives(lc: LifeCounter, amount: int, triggerSignal: bool)
    requires lc.lives != ClampLives(amount, |lc.counters|)
    ensures var r := SetLives(lc, amount, triggerSignal).0;
      && CountFilled(r.counters) == r.lives
      && forall i :: 0 <= i < |r.counters| ==> (r.counters[i] <==> i >= |r.counters| - r.lives)
  {
    FilledFromEndCount(|lc.counters|, ClampLives(amount, |lc.counters|));
  }

  /** Setting the same amount twice changes nothing the second time and
      dispatches at most once. */
  lemma SetLivesIdempotent(lc: LifeCounter, amount: int, triggerSignal: bool)
    ensures var once := SetLives(lc, amount, triggerSignal).0;
      SetLives(once, amount, triggerSignal) == (once, false)
  {
  }

  /** The `lives` property setter: setLives with animation and the signal on. */
  function SetLivesProperty(lc: LifeCounter, value: int): (r: LifeCounter)
    ensures r.lives == ClampLives(value, |lc.counters|)
    ensures SetLives(lc, value, true).1 <==> lc.lives != 0 && r.lives == 0
  {
    SetLives(lc, value, true).0
  }
}

=== FILE: scorecounter.dfy ===
/** GTLib.ScoreCounter: a displayed score that counts up to a target in steps. */
module ScoreCounter {

  datatype ScoreCounter = ScoreCounter(score: int, targetScore: int, step: int, running: bool)

  /** A fresh counter: score and target zero, steps of 100, not running. */
  const Initial: ScoreCounter := ScoreCounter(0, 0, 100, false)

  /** countTo: sets the target and starts counting; a zero step keeps the
      previous step. */
  function CountTo(sc: ScoreCounter, number: int, step: int): (r: ScoreCounter)
    ensures r.score == sc.score && r.targetScore == number && r.running
    ensures r.step == (if step != 0 then step else sc.step)
  {
    sc.(targetScore := number, step := if step != 0 then step else sc.step, running := true)
  }

  /** reset: stops and sets score and target back to zero. */
  function Reset(sc: ScoreCounter): (r: ScoreCounter)
    ensures r.score == 0 && r.targetScore == 0 && !r.running && r.step == sc.step
  {
    sc.(score := 0, targetScore := 0, running := false)
  }

  /** onTimer: one step towards the target, landing on it rather than passing
      it; reaching the target stops the timer and reports completion. */
  function OnTimer(sc: ScoreCounter): (r: (ScoreCounter, bool))
    ensures r.0.score <= sc.targetScore
    ensures r.0.score == sc.targetScore || r.0.score == sc.score + sc.step
    ensures r.0.score < sc.targetScore ==> r.0.score == sc.score + sc.step
    ensures r.1 <==> r.0.score == sc.targetScore
    ensures r.0.running == (sc.running && !r.1)
    ensures r.0.targetScore == sc.targetScore && r.0.step == sc.step
  {
    var score := if sc.score + sc.step >= sc.targetScore then sc.targetScore else sc.score + sc.step;
    if score == sc.targetScore then (sc.(score := score, running := false), true)
    else (sc.(score := score), false)
  }

  /** The counter after `n` timer intervals (the timer stops once complete). */
  function Run(sc: ScoreCounter, n: nat): ScoreCounter
    decreases n
  {
    if n == 0 || !sc.running then sc else Run(OnTimer(sc).0, n - 1)
  }

  /** How many intervals a positive step needs to reach the target: one
      more for every full step still short of it. */
  function TicksNeeded(score: int, target: int, step: int): (n: nat)
    requires step > 0
    ensures n >= 1
    ensures score + n * step >= target
    decreases if score >= target then 0 else target - score
  {
    if score + step >= target then 1 else 1 + TicksNeeded(score + step, target, step)
  }

  /** With a positive step a running counter reaches its target and stops
      after the expected number of intervals. */
  lemma {:induction false} RunReachesTarget(sc: ScoreCounter)
    requires sc.running && sc.step > 0
    ensures var r := Run(sc, TicksNeeded(sc.score, sc.targetScore, sc.step));
      r.score == sc.targetScore && !r.running
    decreases if sc.score >= sc.targetScore then 0 else sc.targetScore - sc.score
  {
    var next := OnTimer(sc).0;
    if sc.score + sc.step >= sc.targetScore {
      assert Run(next, 0) == next;
    } else {
      RunReachesTarget(next);
    }
  }

  /** Counting never passes the target: after any number of intervals the
      score is at most the target, provided it started there. */
  lemma {:induction false} RunNeverOvershoots(sc: ScoreCounter, n: nat)
    requires sc.score <= sc.targetScore
    ensures Run(sc, n).score <= sc.targetScore && Run(sc, n).targetScore == sc.targetScore
    decreases n
  {
    if n > 0 && sc.running {
      RunNeverOvershoots(OnTimer(sc).0, n - 1);
    }
  }
}

=== FILE: scoreformatter.dfy ===
/** GTLib.ScoreFormatter: writes a score with a separator between every block
    of three digits counted from the right. */
module ScoreFormatter {
  import opened Decimal

  /** The source's `substr(start, length)` for a non-negative start: at most
      `length` characters from `start`, clipped to the end of the string. */
  function Substr(s: string, start: nat, length: int): (r: string)
    ensures |r| == if start >= |s| || length <= 0 then 0
                   else if start + length >= |s| then |s| - start
                   else length
    ensures forall i :: 0 <= i < |r| ==> r[i] == s[start + i]
  {
    if start >= |s| || length <= 0 then ""
    else if start + length >= |s| then s[start..]
    else s[start..start + length]
  }

  /** The separator actually used: an empty separator falls back to a space. */
  function EffectiveSeparator(separator: string): (sep: string)
    ensures |sep| >= 1
    ensures separator == "" ==> sep == " "
    ensures separator != "" ==> sep == separator
  {
    if separator == "" then " " else separator
  }

  /** The digits of `cur` are the first `m` digits of `s`, and the blocks
      already written hold the grouping of the rest. */
  ghost predicate Peeled(s: string, sep: string, cur: nat, m: int, r: string) {
    && 1 <= m <= |s|
    && NatToString(cur) == s[..m]
    && (r == "" ==> m == |s|)
    && (r != "" ==> Grouped(s, sep) == Grouped(s[..m], sep) + sep + r)
  }

  /** One round of the loop: the block cut off is the last three (or all
      remaining) of the first `m` digits, and dividing by a thousand drops it. */
  lemma PeelStep(s: string, sep: string, cur: nat, m: int)
    requires cur > 0 && 1 <= m <= |s| && NatToString(cur) == s[..m]
    ensures m > 3 ==>
      && cur / 1000 > 0
      && NatToString(cur / 1000) == s[..m - 3]
      && Grouped(s[..m], sep) == Grouped(s[..m - 3], sep) + sep + s[m - 3..m]
    ensures m <= 3 ==> cur / 1000 == 0 && Grouped(s[..m], sep) == s[..m]
  {
    if m > 3 {
      assert cur >= 1000 by {
        if cur < 1000 { ShortNumber(cur); }
      }
      DropLastThreeDigits(cur);
      assert s[..m][..m - 3] == s[..m - 3];
      assert s[..m][m - 3..] == s[m - 3..m];
      JoinSnoc(Chunks(s[..m - 3]), s[m - 3..m], sep);
    } else {
      assert cur < 1000 by {
        if cur >= 1000 { LongNumber(cur); }
      }
    }
  }

  /** One round of the loop keeps the peeled state, or finishes the grouping
      when the score runs out. */
  lemma RoundStep(s: string, sep: string, cur: nat, i: int, r: string, chunk: string, r': string)
    requires cur > 0 && i >= 1 && Peeled(s, sep, cur, |s| - 3 * (i - 1), r)
    requires var j := |s| - i * 3;
      chunk == if j < 0 then Substr(s, 0, 3 + j) else Substr(s, j, 3)
    requires r' == if r == "" then chunk else chunk + sep + r
    ensures cur / 1000 > 0 ==> Peeled(s, sep, cur / 1000, |s| - 3 * i, r')
    ensures cur / 1000 == 0 ==> r' == Grouped(s, sep)
  {
    var m := |s| - 3 * (i - 1);
    assert chunk == if m > 3 then s[m - 3..m] else s[..m] by {
      ChunkAt(s, i, chunk);
    }
    if m > 3 {
      RoundMore(s, sep, cur, m, r, chunk, r');
    } else {
      RoundLast(s, sep, cur, m, r, chunk, r');
    }
  }

  /** A round with more than three digits left cuts a full block. */
  lemma RoundMore(s: string, sep: string, cur: nat, m: int, r: string, chunk: string, r': string)
    requires cur > 0 && m > 3 && Peeled(s, sep, cur, m, r)
    requires chunk == s[m - 3..m]
    requires r' == if r == "" then chunk else chunk + sep + r
    ensures cur / 1000 > 0 && Peeled(s, sep, cur / 1000, m - 3, r')
  {
    PeelStep(s, sep, cur, m);
    if r == "" {
      assert s[..m] == s;
    }
    Prepend(Grouped(s, sep), Grouped(s[..m], sep), Grouped(s[..m - 3], sep), sep, r, chunk, r', m == |s|);
  }

  /** The round with at most three digits left cuts the leading block and
      completes the grouping. */
  lemma RoundLast(s: string, sep: string, cur: nat, m: int, r: string, chunk: string, r': string)
    requires cur > 0 && m <= 3 && Peeled(s, sep, cur, m, r)
    requires chunk == s[..m]
    requires r' == if r == "" then chunk else chunk + sep + r
    ensures cur / 1000 == 0 && r' == Grouped(s, sep)
  {
    PeelStep(s, sep, cur, m);
    if r == "" {
      assert s[..m] == s;
    }
    Prepend(Grouped(s, sep), Grouped(s[..m], sep), "", sep, r, chunk, r', m == |s|);
  }

  /** Putting the new block in front of the blocks cut so far. */
  lemma Prepend(whole: string, front: string, before: string, sep: string, r: string, chunk: string, r': string, first: bool)
    requires r == "" ==> first && front == whole
    requires r != "" ==> whole == front + sep + r
    requires before == "" ==> front == chunk
    requires before != "" ==> front == before + sep + chunk
    requires r' == if r == "" then chunk else chunk + sep + r
    ensures before == "" ==> r' == whole
    ensures before != "" ==> whole == before + sep + r'
  {
  }

  /** The substring the loop cuts in round i: the three digits ending 3(i-1)
      from the end, or what is left of them at the front. */
  lemma ChunkAt(s: string, i: int, chunk: string)
    requires i >= 1 && 1 <= |s| - 3 * (i - 1) <= |s|
    requires var j := |s| - i * 3;
      chunk == if j < 0 then Substr(s, 0, 3 + j) else Substr(s, j, 3)
    ensures var m := |s| - 3 * (i - 1);
      chunk == if m > 3 then s[m - 3..m] else s[..m]
  {
    var m := |s| - 3 * (i - 1);
    if m == |s| && m > 3 {
      assert s[m - 3..] == s[m - 3..m];
    }
  }

  /** formatScore, following the source's loop that peels off three digits per
      round by dividing the score by a thousand. Zero prints as "0"; a negative
      score never enters the loop and prints as the empty string. */
  method FormatScore(score: int, separator: string) returns (r: string)
    ensures score == 0 ==> r == "0"
    ensures score < 0 ==> r == ""
    ensures score > 0 ==> r == Join(Chunks(NatToString(score)), EffectiveSeparator(separator))
  {
    var sep := EffectiveSeparator(separator);
    var s := IntToString(score);
    r := "";
    var i := 1;
    if score == 0 {
      return s;
    }
    if score < 0 {
      // the loop below only runs while the score is positive
      return r;
    }
    var cur := score;
    assert s[..|s|] == s;
    while cur > 0
      invariant i >= 1 && cur >= 0
      invariant cur > 0 ==> Peeled(s, sep, cur, |s| - 3 * (i - 1), r)
      invariant cur == 0 ==> r == Grouped(s, sep)
      decreases cur
    {
      var j := |s| - i * 3;
      var k := 3;
      if j < 0 {
        k := k + j;
        j := 0;
      }
      var chunk := Substr(s, j, k);
      ghost var r0 := r;
      if r == "" {
        r := chunk;
      } else {
        r := chunk + sep + r;
      }
      RoundStep(s, sep, cur, i, r0, chunk, r);
      cur := cur / 1000;
      i := i + 1;
    }
  }

  /** What a positive score's formatted blocks mean: read back without the
      separators they give the score, the leading block holds one to three
      digits and every later block exactly three. */
  lemma {:induction false} FormatScoreBlocks(score: nat)
    requires score > 0
    ensures var blocks := Chunks(NatToString(score));
      && WellGrouped(blocks)
      && AllDigits(Concat(blocks))
      && ParseDigits(Concat(blocks)) == score
      && |blocks| == (|NatToString(score)| + 2) / 3
  {
    var s := NatToString(score);
    assert WellGrouped(Chunks(s)) && Concat(Chunks(s)) == s && |Chunks(s)| == (|s| + 2) / 3 by {
      ChunksSpec(s);
    }
    assert ParseDigits(s) == score by {
      ParseNatToString(score);
    }
  }
}

=== FILE: wrappers.dfy ===
/** Failure-compatible wrappers used across the model: an optional value and a
    result that is either a value or the error the source would throw. */
module Wrappers {

  datatype Option<+T> = None | Some(value: T) {
    function GetOr(default: T): T {
      match this
      case Some(v) => v
      case None => default
    }
  }

  datatype Result<+R> = Success(value: R) | Failure(error: string) {
    predicate IsFailure() {
      Failure?
    }

    function PropagateFailure<U>(): Result<U>
      requires Failure?
    {
      Failure(error)
    }

    function Extract(): R
      requires Success?
    {
      value
    }
  }
}
